=== FILE: README.md ===
# Huffman file compressor, modelled in Dafny

This project models the compression core of a small Huffman file compressor
(`huffman.cpp`). The core runs the following steps:

- counts the bytes of the input (`buildFrequency`);
- builds the Huffman tree with a priority queue ordered by weight, with ties
  broken by the node's `char` (`Compare`, `buildHuffmanTree`);
- derives a bit code per byte from the root-to-leaf paths (`buildCodes`);
- encodes the text (`encode`) and packs the bit string into bytes plus a
  padding count (`pack_bits`);
- unpacks the bytes again (`unpack_bits`) and walks the tree to decode them
  (`decode`);
- writes and reads the container layout (`encodeFile` / `decodeFile`): a
  4-byte little-endian padding and table size, where the source writes a
  native `int`, five bytes per (byte, count) entry, and then the payload.

Modules, in dependency order:

| module | file | models |
|---|---|---|
| `Base` | base.dfy | bytes, bit strings, `Result`/`Option`, C `char` read as signed |
| `Frequency` | frequency.dfy | `buildFrequency`; the table's entries sorted as `sort(freqVec)` sorts them |
| `TreeBuilder` | tree.dfy | `Compare`, the priority queue as a sorted sequence, `buildHuffmanTree` |
| `CodeGen` | codes.dfy | `buildCodes` |
| `BitCoding` | coding.dfy | `encode`, `decode` (as written and corrected) |
| `BitPacking` | packing.dfy | `pack_bits` (both as a function and as the source's loop), `unpack_bits` |
| `ContainerFormat` | container.dfy | the container's byte layout, 32-bit little-endian ints, the table read back into a map |
| `Huffman` | pipeline.dfy | `encodeFile` / `decodeFile` without the file I/O |

Modelling choices:

- A byte is an `int` in `[0, 256)`.
- A bit is a `bool`, with `true` for the character `'1'`.
- Where the source compares `char`s (the queue's tie-break, and the `sort` of
  the frequency vector), a byte is read as a signed `char`, as on a
  signed-`char` build, so 0x80–0xFF come before 0x00. Internal nodes carry `'\0'`, so on equal weight an internal
  node ranks between the negative and the positive bytes.
- The `priority_queue` is a sequence in pop order. `Push` inserts a node behind
  every node it does not outrank.
- Node weights are `int`, because the container's counts are signed 32-bit
  fields read back verbatim.
- The 32-bit writes wrap modulo 2^32. The reads are two's complement.
- `unpack_bits` computes `length - padding` on `size_t`. When `padding` is
  negative or larger than the length, the subtraction wraps and `substr`
  keeps the whole string. `Unpack` models exactly that.
- Reading a container that is shorter than its header declares yields
  `Failure(CorruptContainer)`. So does a table with no entries, for which the
  source would call `top()` on an empty queue.

## Model

| member | source | states |
|---|---|---|
| Base.SignedChar | huffman.cpp:12-18 | a byte read as `char` lies in [-128, 128) and is congruent to the byte modulo 256 |
| Frequency.Frequencies | huffman.cpp:20-26 | the table has a key for exactly the bytes that occur in the text, and each key's count is the byte's number of occurrences |
| Frequency.TotalIsLength | huffman.cpp:20-26 | the counts of the table add up to the length of the text |
| Frequency.Entries | huffman.cpp:30-31 | the vector handed to the queue lists every (byte, count) pair of the table and nothing else, in strictly ascending signed-`char` order |
| Frequency.EntryKeysOnce | huffman.cpp:30-31 | each key of the table occurs exactly once in the sorted vector |
| Frequency.EntriesCount | huffman.cpp:151-157 | the table writes one entry per key: as many entries as `freq.size()` |
| Frequency.EntriesTotal | huffman.cpp:154-157 | the counts written add up to the table's total |
| Frequency.OccurrencesBounded | huffman.cpp:20-26 | no byte occurs more often than the text is long |
| TreeBuilder.Compare | huffman.cpp:12-18 | a node ranks below another only if it is at least as heavy, always when it is heavier, and on equal weight exactly when its signed `ch` is larger; never when the two have the same weight and `ch` |
| TreeBuilder.SortedFrontIsMin | huffman.cpp:12-18 | the node at the front of a queue in pop order has the smallest weight, and among nodes of that weight the smallest signed `ch` |
| TreeBuilder.CompareIsStrictWeakOrder | huffman.cpp:12-18 | the comparator is irreflexive, asymmetric and transitive, and two nodes that do not compare either way have the same weight and `ch` |
| TreeBuilder.InsertPos | huffman.cpp:12-18 | a pushed node goes behind every node it does not outrank and ahead of every node that ranks below it |
| TreeBuilder.Push | huffman.cpp:12-18 | pushing keeps the queue in pop order and adds exactly the pushed node |
| TreeBuilder.PushAtInsertPos | huffman.cpp:44 | a push moves no other node: the new queue is the old one with the node spliced in at its insertion position |
| TreeBuilder.PushMembers | huffman.cpp:44 | after a push the queue holds the old nodes and the pushed one, and is one longer |
| TreeBuilder.PushForest | huffman.cpp:44 | a push adds exactly the pushed node's leaves and weight to the queue |
| TreeBuilder.InitQueue | huffman.cpp:33-35 | the initial queue is in pop order, holds one leaf per entry with the entry's byte and count, and weighs the sum of the counts |
| TreeBuilder.MergeStep | huffman.cpp:37-44 | one round of the loop leaves a queue in pop order that is one node shorter |
| TreeBuilder.MergeStepKeeps | huffman.cpp:37-44 | the new parent has the first popped node on the left, the second on the right, and their summed weight; the queue keeps its leaves and total weight; well-weightedness is preserved |
| TreeBuilder.Merge | huffman.cpp:36-48 | the last node standing holds every leaf of the queue and the queue's total weight; it is internal when two or more nodes started |
| TreeBuilder.BuildTree | huffman.cpp:28-49 | the root has one leaf per key of the table, carrying that key's count, and no other leaves; every internal node weighs the sum of its children; the root weighs the table's total; the root is a leaf exactly when the table has one key |
| TreeBuilder.InitQueueStrict | huffman.cpp:29-35 | with no byte listed twice, every initial leaf strictly outranks the leaf after it |
| TreeBuilder.StrictlySortedUnique | huffman.cpp:29-35 | two strictly ordered queues holding the same nodes are identical |
| TreeBuilder.InitQueueOrderIndependent | huffman.cpp:30-36 | the initial queue and the resulting tree do not depend on the order in which the table was enumerated |
| CodeGen.CodesFrom | huffman.cpp:51-58 | the walk gives a code to exactly the bytes at the leaves below the node; every code extends the path walked so far and continues down to its byte's leaf; a lone leaf reached by the empty path gets "0" |
| CodeGen.BuildCodes | huffman.cpp:51-58 | every byte of the tree gets a non-empty code and no other byte does; below an internal root, each code is a path from the root to its byte's leaf; a single-leaf root gets the code "0"; no code is a prefix of another |
| CodeGen.PathsPrefixFree | huffman.cpp:51-58 | of two root-to-leaf paths, neither is a proper prefix of the other, and equal paths end at the same byte |
| CodeGen.CodeIsThePath | huffman.cpp:51-58 | in a tree whose bytes are distinct, a byte's code is its only root-to-leaf path |
| BitCoding.Encode | huffman.cpp:60-66 | the encoding is as long as the sum of the code lengths of the text's bytes, a byte without a code contributing nothing |
| BitCoding.EncodeAppend | huffman.cpp:60-66 | encoding a concatenation concatenates the encodings |
| BitCoding.DecodeAsWritten | huffman.cpp:106-119 | the loop as written fails exactly when the root is a single leaf and there is at least one bit to decode |
| BitCoding.Decode | huffman.cpp:106-119 | on a tree with an internal root the corrected decoding gives what the loop as written gives; on a single-leaf root it emits one byte per bit |
| BitCoding.WalkCode | huffman.cpp:106-119 | walking a complete code emits exactly its byte and returns to the root, whatever bits follow |
| BitCoding.WalkPartialCode | huffman.cpp:106-119 | walking a proper prefix of a code emits nothing |
| BitCoding.DecodeEncode | huffman.cpp:106-119 | decoding the encoding of any text drawn from the tree's bytes gives back the text, for every tree, however ties were broken |
| BitCoding.DecodeDropsIncompleteTail | huffman.cpp:106-119 | a trailing part of a code after a complete encoding is dropped |
| BitCoding.AsWrittenAgreesOnInternalRoot | huffman.cpp:106-119 | below an internal root, the decode loop as written never meets a null child and yields the corrected decoding |
| BitCoding.AsWrittenFailsOnLeafRoot | huffman.cpp:106-119 | with a single-leaf root, the decode loop as written steps to a null child on the first bit |
| BitCoding.SingleSymbolDecodeFails | huffman.cpp:106-119 | a non-empty text of one repeated byte cannot be decoded by the loop as written |
| BitCoding.SingleSymbolDecodes | huffman.cpp:106-119 | with the corrected decode, such a text round-trips |
| BitPacking.LowBitsOfValue | huffman.cpp:93-94 | writing out the value of a bit string in as many binary digits, most significant first, gives back the bit string |
| BitPacking.ValueOfLowBits | huffman.cpp:93-94 | a number below 2^n written as n binary digits reads back as that number |
| BitPacking.ByteBitsValue | huffman.cpp:93-94 | `bitset<8>::to_string` of a byte reads back as that byte |
| BitPacking.Pack | huffman.cpp:68-88 | the packed form has ceil(n/8) bytes; its padding is the number of unused bit positions, between 0 and 7; bit i of the string is bit i mod 8, most significant first, of byte i/8; the padding bits are zero |
| BitPacking.PackBits | huffman.cpp:68-88 | the source's shift-and-flush loop produces the packed form, and unpacking it gives back the bit string |
| BitPacking.ShiftBitsIn | huffman.cpp:74-82 | after the loop, every full byte is flushed, fewer than eight bits are pending, and the pending byte holds their value |
| BitPacking.PackedAfterLoop | huffman.cpp:83-87 | shifting the pending bits up by the padding and appending the byte completes the packed form, and no byte is appended when the padding is zero |
| BitPacking.Unpack | huffman.cpp:90-97 | the result lists the bits of every byte, most significant first; it drops the last `padding` bits when that count lies between 0 and the length, and keeps them all otherwise |
| BitPacking.UnpackPack | huffman.cpp:68-97 | unpacking a packed bit string gives back the bit string |
| BitPacking.PackUnpack | huffman.cpp:68-97 | packing the unpacked bits of well-formed packed data (padding below 8, padding bits zero) gives back the same bytes and padding |
| ContainerFormat.ReadInt32 | huffman.cpp:174-177 | the value read is a 32-bit signed int congruent modulo 2^32 to the four bytes read little-endian |
| ContainerFormat.ReadInt32Bytes | huffman.cpp:149-152 | an int written and read back is congruent modulo 2^32 to the original, and equal to it when it fits in 32 bits |
| ContainerFormat.Int32BytesOfRead | huffman.cpp:174-177 | any four bytes read as an int and written again are the same four bytes |
| ContainerFormat.Serialize | huffman.cpp:149-159 | the container takes 8 header bytes, 5 bytes per entry, and the payload |
| ContainerFormat.Parse | huffman.cpp:174-194 | a container read successfully accounts for every byte of the data, and its payload is the data's tail |
| ContainerFormat.ParseFailsExactlyOnTruncation | huffman.cpp:174-187 | reading fails exactly when the data is shorter than the header or than the entries the header declares, and the failure is `CorruptContainer`; a negative table size reads no entries |
| ContainerFormat.ParseTableBytes | huffman.cpp:181-187 | entries written and read back are the same entries |
| ContainerFormat.ParseSerialize | huffman.cpp:149-159 | reading a written container gives back its padding, table and payload, when the table and counts fit in 32-bit ints |
| ContainerFormat.SerializeParse | huffman.cpp:174-194 | writing what was read from data with a non-negative table size gives back the data |
| ContainerFormat.TableToMap | huffman.cpp:179-187 | the last entry's byte is a key of the rebuilt map, with that entry's count whatever came before it |
| ContainerFormat.TableToMapKeys | huffman.cpp:179-187 | the rebuilt map has exactly the bytes listed in the table as keys |
| ContainerFormat.TableToMapLast | huffman.cpp:179-187 | a byte listed more than once keeps the count of its last entry |
| ContainerFormat.TableToMapEntries | huffman.cpp:179-187 | reading back the entries written for a frequency table rebuilds that table |
| Huffman.Compress | huffman.cpp:121-160 | compression fails exactly on the empty input, and the failure is `EmptyInput` |
| Huffman.Decompress | huffman.cpp:167-197 | decompression fails exactly when the data is shorter than its header declares or its table has no entries, and then with `CorruptContainer` |
| Huffman.CompressDecompress | huffman.cpp:121-197 | decompressing what compression wrote gives back the input, for any non-empty input shorter than 2^31 bytes |
| Huffman.CompressedLayout | huffman.cpp:149-159 | the container is 8 + 5·(distinct bytes) + ceil(bits/8) bytes long; its padding is (8 − bits mod 8) mod 8; its counts add up to the input's length |
| Huffman.EmptyTableIsCorrupt | huffman.cpp:179-189 | a container whose table has no entries is rejected as corrupt |

## Left out

- File I/O and messages (huffman.cpp:122-147, 160-164, 168-172, 199-205): `Compress` and `Decompress` work on byte sequences. Opening, reading and writing files and printing messages are the caller's business. A failure to open a file is not modelled.
- `freeTree` (huffman.cpp:99-104) and the `Node` constructor: memory management has no counterpart in a model with immutable trees.
- main.cpp is not part of this model: it only dispatches on the command line.
- `unordered_map` iteration order (huffman.cpp:154): the order is unspecified, so `Compress` writes the entries in ascending signed-`char` order. Decompression does not depend on that order. `TreeBuilder.InitQueueOrderIndependent` shows the tree depends only on the table's contents.
- TreeBuilder.Push: among nodes of equal weight and equal `ch`, such as two internal nodes of equal weight, `std::priority_queue` pops in an implementation-defined heap order. The model pops them in arrival order. `BitCoding.DecodeEncode` holds for every tree, so the round trip does not depend on this choice.
- Huffman.CompressDecompress: requires the input to be shorter than 2^31 bytes. A longer input overflows a count at huffman.cpp:23 or the summed weight `left->freq + right->freq` at huffman.cpp:41, which is undefined behaviour.
- Huffman.Decompress: when the data is shorter than its header declares, `in.read` leaves fields uninitialised, and with no entries `pq.top()` is called on an empty queue. Both are undefined behaviour. The model reports `CorruptContainer` for both, instead of modelling what a particular build would do. It also uses the corrected decoding: on a single-leaf root, where the source's `decode` reads through a null child, it emits the leaf's byte once per bit (see Findings). A table whose counts sum past 2^31 − 1 overflows the summed weight at huffman.cpp:41, which is undefined behaviour; the model adds exactly.
- `int` width and byte order (huffman.cpp:149, 152, 156, 175, 177, 185): the source writes and reads `sizeof(int)` bytes in the machine's byte order through `reinterpret_cast`. The model fixes 4-byte little-endian fields, which matches a build with a 4-byte little-endian `int` such as x86-64; other builds are not modelled.
- Signedness of `char` (huffman.cpp:15, 31): it is implementation-defined. The model covers the signed-`char` build only. On an unsigned-`char` build the tie-break and the `sort` order bytes 0x00–0xFF, which changes ties in the tree but not the round trip, since `BitCoding.DecodeEncode` holds for every tree.
- Huffman.Compress: the empty input is refused with `EmptyInput`. The source prints a message and writes no file.
- `decode` treats any character other than `'1'` as a left step. Bits are booleans here, and `unpack_bits` only produces `'0'` and `'1'`, so nothing is lost.
- Decompressing a table with negative or inconsistent counts still builds a tree and decodes. The model does not describe what that output means beyond `Decompress`'s contract.

## Findings

| source | as written | input that shows it | evidently intended | confidence | as-written member | corrected member |
|---|---|---|---|---|---|---|
| huffman.cpp:106-119 | `decode` steps to a child of the current node before checking for a leaf. When the root is itself a leaf, its children are null, and the leaf test then reads through a null pointer. | Any non-empty input made of one repeated byte, e.g. `aaa`. The tree is the single leaf `a`, the code of `a` is "0", and the payload is `000`. Decoding steps from the root to its null left child. | Each bit of a one-symbol stream stands for that symbol, matching the code "0" it was given, so `000` decodes to `aaa` | not executed | BitCoding.SingleSymbolDecodeFails | BitCoding.SingleSymbolDecodes |

`BitCoding.DecodeAsWritten` models the loop as written and returns `None` where the source crashes. `BitCoding.Decode` is the corrected decoding: on a leaf root it emits the symbol once per bit. `Huffman.Decompress` uses the corrected decoding.

=== FILE: base.dfy ===
/**
 Shared vocabulary of the Huffman compressor model: bytes, bit strings, the
 two failure conditions of the pipeline, and the ordering of `char` values.
 */
module Base {

  /** An octet of the input text, of the packed payload or of the container. */
  type byte = b: int | 0 <= b < 256

  /** A logical bit string; `true` is the symbol '1' and `false` the symbol '0'. */
  type Bits = seq<bool>

  datatype Option<+T> = None | Some(value: T)

  /** The failure conditions of the pipeline. */
  datatype Error =
    | EmptyInput        // compress was given nothing to compress
    | CorruptContainer  // the container is truncated or declares no table entries

  datatype Result<+T> = Success(value: T) | Failure(error: Error) {

    predicate IsFailure() {
      Failure?
    }

    function PropagateFailure<U>(): Result<U>
      requires Failure?
    {
      Failure(error)
    }

    function Extract(): T
      requires Success?
    {
      value
    }
  }

  /** The value of byte `b` held in a C `char` on a platform where `char` is
      signed: bytes 0x80..0xFF are negative and order before '\0'. */
  function SignedChar(b: byte): (v: int)
    ensures -128 <= v < 128
    ensures (v + 256) % 256 == b
  {
    if b < 128 then b else b - 256
  }

  /** Every byte value once, in ascending signed-`char` order (0x80, ..., 0xFF, 0x00, ..., 0x7F). */
  function SignedOrder(): (order: seq<byte>)
    ensures |order| == 256
    ensures forall i :: 0 <= i < |order| ==> SignedChar(order[i]) == i - 128
  {
    seq(256, i requires 0 <= i < 256 => (i + 128) % 256)
  }

  /** The ascending signed-`char` order lists every byte, and each only once. */
  lemma SignedOrderEnumerates()
    ensures forall b: byte :: b in SignedOrder()
    ensures forall i, j :: 0 <= i < j < 256 ==> SignedOrder()[i] != SignedOrder()[j]
  {
    var order := SignedOrder();
    forall b: byte
      ensures b in order
    {
      var i := (b + 128) % 256;
      assert SignedChar(order[i]) == SignedChar(b);
    }
  }

  /** No element of `s` occurs twice. */
  ghost predicate NoDuplicates<T>(s: seq<T>) {
    forall i, j :: 0 <= i < j < |s| ==> s[i] != s[j]
  }

  /** The bit string of `n` zero bits. */
  function Zeros(n: nat): (z: Bits)
    ensures |z| == n
    ensures forall i :: 0 <= i < n ==> !z[i]
  {
    seq(n, _ => false)
  }

  /** Concatenation regroups freely. */
  lemma ConcatAssoc<T>(a: seq<T>, b: seq<T>, c: seq<T>)
    ensures (a + b) + c == a + (b + c)
  {
  }

  /** Putting the head back in front of a split tail splits one place later. */
  lemma ConsSplit<T>(q: seq<T>, k: nat, t: T)
    requires q != [] && k <= |q| - 1
    ensures [q[0]] + (q[1..][..k] + [t] + q[1..][k..]) == q[..k + 1] + [t] + q[k + 1..]
  {
    assert q[1..][..k] == q[1..k + 1] && q[1..][k..] == q[k + 1..];
    assert q[..k + 1] == [q[0]] + q[1..k + 1];
  }

  /** The head and tail of a concatenation with a non-empty front. */
  lemma ConsAppend<T>(a: seq<T>, b: seq<T>)
    requires a != []
    ensures a + b != [] && (a + b)[0] == a[0] && (a + b)[1..] == a[1..] + b
  {
    assert (a + b)[1..] == a[1..] + b;
  }

  /** Splicing `y` between `x` and `z` adds its elements to the multiset. */
  lemma MultisetInsert<T>(x: seq<T>, y: seq<T>, z: seq<T>)
    ensures multiset(x + y + z) == multiset(x + z) + multiset(y)
  {
  }

  /** The multiset of a concatenation does not depend on its grouping or order. */
  lemma MultisetRegroup<T>(x: seq<T>, y: seq<T>, z: seq<T>)
    ensures multiset(x + (y + z)) == multiset(z) + multiset(x + y)
  {
    assert x + (y + z) == (x + y) + z;
  }

  /** A non-empty sequence's multiset is its front's plus its last element. */
  lemma MultisetSnoc<T>(s: seq<T>)
    requires s != []
    ensures multiset(s) == multiset(s[..|s| - 1]) + multiset{s[|s| - 1]}
  {
    assert s == s[..|s| - 1] + [s[|s| - 1]];
  }

  /** The members of a non-empty sequence are those of its front and its last element. */
  lemma InFront<T>(s: seq<T>)
    requires s != []
    ensures forall e :: e in s <==> e in s[..|s| - 1] || e == s[|s| - 1]
  {
    assert s == s[..|s| - 1] + [s[|s| - 1]];
  }

  /** Equal multisets with equal first elements have equal tails. */
  lemma MultisetTail<T>(a: seq<T>, b: seq<T>)
    requires a != [] && b != [] && a[0] == b[0] && multiset(a) == multiset(b)
    ensures multiset(a[1..]) == multiset(b[1..])
  {
    MultisetCons(a);
    MultisetCons(b);
  }

  /** A non-empty sequence's multiset is its head plus its tail's multiset. */
  lemma MultisetCons<T>(a: seq<T>)
    requires a != []
    ensures multiset(a[1..]) == multiset(a) - multiset{a[0]}
  {
    assert a == [a[0]] + a[1..];
    assert multiset(a) == multiset{a[0]} + multiset(a[1..]);
  }
}

=== FILE: codes.dfy ===
/**
 Code generation (`buildCodes`): the code of a byte is the path from the
 root to its leaf, '0' for a left branch and '1' for a right branch.
 */
module CodeGen {
  import opened Base
  import opened TreeBuilder

  /** Byte value to its code. */
  type CodeTable = map<byte, Bits>

  /** Following `path` from `t` ends exactly on a leaf holding `b`. */
  ghost predicate Reaches(t: Tree, path: Bits, b: byte) {
    match t
    case Leaf(c, _) => path == [] && c == b
    case Internal(_, l, r) => |path| > 0 && Reaches(if path[0] then r else l, path[1..], b)
  }

  /** No code of the table is a prefix of the code of another byte. */
  ghost predicate PrefixFree(codes: CodeTable) {
    forall b1, b2 :: b1 in codes && b2 in codes && b1 != b2 ==> !(codes[b1] <= codes[b2])
  }

  /** Each byte occurs at most once among the leaves. */
  ghost predicate DistinctSymbols(t: Tree) {
    forall b :: multiset(Symbols(t))[b] <= 1
  }

  /** buildCodes(root, path, table): the recursive walk with the accumulated
      path. Leaves record the path, or "0" when the path is empty; the right
      subtree is visited after the left one, so its entries win. */
  function CodesFrom(t: Tree, path: Bits): (codes: CodeTable)
    ensures forall b :: b in codes <==> b in Symbols(t)
    ensures t.Leaf? && path == [] ==> codes == map[t.ch := [false]]
    ensures t.Internal? || path != [] ==>
              forall b :: b in codes ==> path <= codes[b] && Reaches(t, codes[b][|path|..], b)
  {
    match t
    case Leaf(c, _) =>
      map[c := if path == [] then [false] else path]
    case Internal(_, l, r) =>
      var lc := CodesFrom(l, path + [false]);
      var rc := CodesFrom(r, path + [true]);
      InternalCodes(t, path, lc, rc);
      lc + rc
  }

  lemma InternalCodes(t: Tree, path: Bits, lc: CodeTable, rc: CodeTable)
    requires t.Internal?
    requires forall b :: b in lc ==> path + [false] <= lc[b] && Reaches(t.left, lc[b][|path| + 1..], b)
    requires forall b :: b in rc ==> path + [true] <= rc[b] && Reaches(t.right, rc[b][|path| + 1..], b)
    ensures forall b :: b in lc + rc ==> path <= (lc + rc)[b] && Reaches(t, (lc + rc)[b][|path|..], b)
  {
    forall b | b in lc + rc
      ensures path <= (lc + rc)[b] && Reaches(t, (lc + rc)[b][|path|..], b)
    {
      var code := (lc + rc)[b];
      var x := if b in rc then true else false;
      assert (path + [x])[..|path|] == path;
      assert code[|path|] == x;
      assert code[|path|..][1..] == code[|path| + 1..];
    }
  }

  /** buildCodes(root, "", table). */
  function BuildCodes(t: Tree): (codes: CodeTable)
    ensures forall b :: b in codes <==> b in Symbols(t)
    ensures forall b :: b in codes ==> |codes[b]| > 0
    ensures t.Leaf? ==> codes == map[t.ch := [false]]
    ensures t.Internal? ==> forall b :: b in codes ==> Reaches(t, codes[b], b)
    ensures PrefixFree(codes)
  {
    CodesAreLeafPaths(t);
    CodesFrom(t, [])
  }

  lemma {:induction false} CodesAreLeafPaths(t: Tree)
    ensures var codes := CodesFrom(t, []);
      && (forall b :: b in codes ==> |codes[b]| > 0)
      && (t.Internal? ==> forall b :: b in codes ==> Reaches(t, codes[b], b))
      && PrefixFree(codes)
  {
    var codes := CodesFrom(t, []);
    if t.Internal? {
      forall b | b in codes
        ensures Reaches(t, codes[b], b) && |codes[b]| > 0
      {
        assert codes[b][0..] == codes[b];
      }
      forall b1, b2 | b1 in codes && b2 in codes && codes[b1] <= codes[b2]
        ensures b1 == b2
      {
        PathsPrefixFree(t, codes[b1], b1, codes[b2], b2);
      }
    }
  }

  /** Of two root-to-leaf paths, neither is a proper prefix of the other:
      equal-prefix paths end on the same leaf. */
  lemma {:induction false} PathsPrefixFree(t: Tree, p1: Bits, b1: byte, p2: Bits, b2: byte)
    requires Reaches(t, p1, b1) && Reaches(t, p2, b2)
    requires p1 <= p2
    ensures p1 == p2 && b1 == b2
  {
    match t
    case Leaf(_, _) =>
    case Internal(_, l, r) =>
      assert p1[0] == p2[0];
      assert p1[1..] <= p2[1..];
      PathsPrefixFree(if p1[0] then r else l, p1[1..], b1, p2[1..], b2);
      assert p1 == [p1[0]] + p1[1..] && p2 == [p2[0]] + p2[1..];
  }

  /** A path that reaches a byte proves the byte sits at a leaf. */
  lemma {:induction false} ReachesSymbol(t: Tree, p: Bits, b: byte)
    requires Reaches(t, p, b)
    ensures b in Symbols(t)
  {
    match t
    case Leaf(_, _) =>
    case Internal(_, l, r) =>
      ReachesSymbol(if p[0] then r else l, p[1..], b);
  }

  /** The subtrees of a tree with distinct bytes have distinct bytes and
      share none. */
  lemma DistinctChildren(t: Tree)
    requires t.Internal? && DistinctSymbols(t)
    ensures DistinctSymbols(t.left) && DistinctSymbols(t.right)
    ensures forall b :: b in Symbols(t.left) ==> b !in Symbols(t.right)
  {
    var ml, mr := multiset(Symbols(t.left)), multiset(Symbols(t.right));
    assert multiset(Symbols(t)) == ml + mr;
    forall x
      ensures ml[x] <= 1 && mr[x] <= 1
      ensures x in Symbols(t.left) ==> x !in Symbols(t.right)
    {
      assert multiset(Symbols(t))[x] == ml[x] + mr[x];
      assert x in Symbols(t.left) <==> x in ml;
      assert x in Symbols(t.right) <==> x in mr;
    }
  }

  /** In a tree whose bytes are distinct, each byte is reached by one path only. */
  lemma {:induction false} PathUnique(t: Tree, p1: Bits, p2: Bits, b: byte)
    requires DistinctSymbols(t)
    requires Reaches(t, p1, b) && Reaches(t, p2, b)
    ensures p1 == p2
  {
    match t
    case Leaf(_, _) =>
    case Internal(_, l, r) =>
      DistinctChildren(t);
      ReachesSymbol(if p1[0] then r else l, p1[1..], b);
      ReachesSymbol(if p2[0] then r else l, p2[1..], b);
      assert p1[0] == p2[0];
      PathUnique(if p1[0] then r else l, p1[1..], p2[1..], b);
      assert p1 == [p1[0]] + p1[1..] && p2 == [p2[0]] + p2[1..];
  }

  /** With distinct bytes, every leaf of an internal root gets exactly one
      code: its own root-to-leaf path. */
  lemma CodeIsThePath(t: Tree, p: Bits, b: byte)
    requires t.Internal? && DistinctSymbols(t)
    requires Reaches(t, p, b)
    ensures b in BuildCodes(t) && BuildCodes(t)[b] == p
  {
    ReachesSymbol(t, p, b);
    PathUnique(t, BuildCodes(t)[b], p, b);
  }
}

=== FILE: coding.dfy ===
/**
 Bit encoding (`encode`) and tree-walk decoding (`decode`).
 */
module BitCoding {
  import opened Base
  import opened Frequency
  import opened TreeBuilder
  import opened CodeGen

  /** `huffmanCode[ch]`: the code of `ch`, or the empty string that
      `operator[]` inserts for a byte without a code. */
  function CodeOf(codes: CodeTable, ch: byte): Bits {
    if ch in codes then codes[ch] else []
  }

  /** encode: the codes of the text's bytes concatenated in input order. */
  function Encode(text: seq<byte>, codes: CodeTable): (bits: Bits)
    ensures |bits| == CodeLengthSum(text, codes)
  {
    if text == [] then [] else CodeOf(codes, text[0]) + Encode(text[1..], codes)
  }

  /** The sum of the code lengths of the text's bytes. */
  function CodeLengthSum(text: seq<byte>, codes: CodeTable): nat {
    if text == [] then 0 else |CodeOf(codes, text[0])| + CodeLengthSum(text[1..], codes)
  }

  /** Encoding a concatenation concatenates the encodings. */
  lemma {:induction false} EncodeAppend(a: seq<byte>, b: seq<byte>, codes: CodeTable)
    ensures Encode(a + b, codes) == Encode(a, codes) + Encode(b, codes)
    decreases |a|
  {
    if a == [] {
      assert a + b == b;
    } else {
      assert (a + b)[0] == a[0];
      assert (a + b)[1..] == a[1..] + b;
      EncodeAppend(a[1..], b, codes);
    }
  }

  /** The walk of decode below an internal root: step to the child the bit
      selects; on reaching a leaf emit its byte and restart at the root. A
      trailing path that stops short of a leaf emits nothing. */
  function Walk(bits: Bits, root: Tree, cur: Tree): seq<byte>
    requires root.Internal? && cur.Internal?
    decreases |bits|
  {
    if bits == [] then []
    else
      var next := if bits[0] then cur.right else cur.left;
      if next.Leaf? then [next.ch] + Walk(bits[1..], root, root)
      else Walk(bits[1..], root, next)
  }

  /** decode, with the single-leaf root handled: every bit of a one-symbol
      stream stands for that symbol, matching the code "0" it was given. */
  function Decode(bits: Bits, root: Tree): (r: seq<byte>)
    ensures root.Internal? ==> DecodeAsWritten(bits, root) == Some(r)
    ensures root.Leaf? ==> |r| == |bits|
  {
    match root
    case Leaf(c, _) => seq(|bits|, _ => c)
    case Internal(_, _, _) =>
      AsWrittenAgreesOnInternalRoot(bits, root, root);
      Walk(bits, root, root)
  }

  /** decode as the source writes it: on a single-leaf root the first bit
      steps to a null child, whose fields are then read; that crash is `None`. */
  function DecodeAsWritten(bits: Bits, root: Tree): (r: Option<seq<byte>>)
    ensures r.None? <==> root.Leaf? && |bits| > 0
  {
    if root.Leaf? then WalkAsWritten(bits, root, root)
    else
      AsWrittenAgreesOnInternalRoot(bits, root, root);
      WalkAsWritten(bits, root, root)
  }

  function WalkAsWritten(bits: Bits, root: Tree, cur: Tree): Option<seq<byte>>
    decreases |bits|
  {
    if bits == [] then Some([])
    else match cur
      case Leaf(_, _) => None
      case Internal(_, l, r) =>
        var next := if bits[0] then r else l;
        if next.Leaf? then
          match WalkAsWritten(bits[1..], root, root)
          case None => None
          case Some(rest) => Some([next.ch] + rest)
        else WalkAsWritten(bits[1..], root, next)
  }

  /** Below an internal root the source's walk never meets a null child and
      agrees with Decode. */
  lemma {:induction false} AsWrittenAgreesOnInternalRoot(bits: Bits, root: Tree, cur: Tree)
    requires root.Internal? && cur.Internal?
    ensures WalkAsWritten(bits, root, cur) == Some(Walk(bits, root, cur))
    decreases |bits|
  {
    if bits != [] {
      var next := if bits[0] then cur.right else cur.left;
      if next.Leaf? {
        AsWrittenAgreesOnInternalRoot(bits[1..], root, root);
      } else {
        AsWrittenAgreesOnInternalRoot(bits[1..], root, next);
      }
    }
  }

  /** On a single-leaf root the source's decode crashes on any non-empty bit string. */
  lemma AsWrittenFailsOnLeafRoot(bits: Bits, root: Tree)
    requires root.Leaf? && |bits| > 0
    ensures DecodeAsWritten(bits, root) == None
  {
  }

  /** Walking a complete code from the node it starts at emits its byte and
      returns to the root. */
  lemma {:induction false} WalkCode(p: Bits, rest: Bits, root: Tree, cur: Tree, b: byte)
    requires root.Internal? && cur.Internal?
    requires Reaches(cur, p, b)
    ensures Walk(p + rest, root, cur) == [b] + Walk(rest, root, root)
    decreases |p|
  {
    var bits := p + rest;
    assert bits[0] == p[0];
    assert bits[1..] == p[1..] + rest;
    var next := if p[0] then cur.right else cur.left;
    if next.Internal? {
      WalkCode(p[1..], rest, root, next, b);
    } else {
      assert p[1..] == [];
    }
  }

  /** Walking part of a code, short of its leaf, emits nothing. */
  lemma {:induction false} WalkPartialCode(p: Bits, q: Bits, root: Tree, cur: Tree, b: byte)
    requires root.Internal? && cur.Internal?
    requires Reaches(cur, q, b)
    requires p < q
    ensures Walk(p, root, cur) == []
    decreases |p|
  {
    if p != [] {
      assert p[0] == q[0];
      var next := if p[0] then cur.right else cur.left;
      assert |q[1..]| > 0;
      assert Reaches(next, q[1..], b);
      assert p[1..] < q[1..];
      WalkPartialCode(p[1..], q[1..], root, next, b);
    }
  }

  /** Every code of the table leads from `t` to the leaf of its byte. */
  ghost predicate CodesReach(t: Tree, codes: CodeTable) {
    forall b :: b in codes ==> Reaches(t, codes[b], b)
  }

  /** Every byte of the text has a code. */
  ghost predicate Covered(text: seq<byte>, codes: CodeTable) {
    forall i :: 0 <= i < |text| ==> text[i] in codes
  }

  /** Below an internal root, walking an encoded text followed by any bits
      yields the text followed by what those bits yield. */
  lemma {:induction false} WalkEncoded(text: seq<byte>, tail: Bits, t: Tree, codes: CodeTable)
    requires t.Internal? && CodesReach(t, codes) && Covered(text, codes)
    ensures Walk(Encode(text, codes) + tail, t, t) == text + Walk(tail, t, t)
    decreases |text|
  {
    if text == [] {
      assert Encode(text, codes) + tail == tail;
    } else {
      var rest := Encode(text[1..], codes);
      assert Covered(text[1..], codes) by {
        forall i | 0 <= i < |text[1..]| ensures text[1..][i] in codes {
          assert text[1..][i] == text[i + 1];
        }
      }
      WalkEncoded(text[1..], tail, t, codes);
      var code := codes[text[0]];
      assert Encode(text, codes) == code + rest;
      ConcatAssoc(code, rest, tail);
      WalkCode(code, rest + tail, t, t, text[0]);
      assert text == [text[0]] + text[1..];
    }
  }

  /** The codes of an internal root reach their leaves and cover every byte
      of a text drawn from the tree. */
  lemma BuiltCodesReach(text: seq<byte>, t: Tree)
    requires t.Internal?
    requires forall i :: 0 <= i < |text| ==> text[i] in Symbols(t)
    ensures CodesReach(t, BuildCodes(t)) && Covered(text, BuildCodes(t))
  {
  }

  /** Under a single-leaf root every byte gets one bit. */
  lemma {:induction false} EncodeOnLeafRoot(text: seq<byte>, t: Tree)
    requires t.Leaf?
    requires forall i :: 0 <= i < |text| ==> text[i] == t.ch
    ensures |Encode(text, BuildCodes(t))| == |text|
    decreases |text|
  {
    if text != [] {
      assert forall i :: 0 <= i < |text[1..]| ==> text[1..][i] == text[i + 1];
      EncodeOnLeafRoot(text[1..], t);
    }
  }

  /** decode(encode(text)) is the text, for any tree holding every byte of
      the text, whatever order ties were broken in. */
  lemma {:induction false} DecodeEncode(text: seq<byte>, t: Tree)
    requires forall i :: 0 <= i < |text| ==> text[i] in Symbols(t)
    ensures Decode(Encode(text, BuildCodes(t)), t) == text
  {
    if t.Leaf? {
      DecodeEncodeLeafRoot(text, t);
    } else {
      BuiltCodesReach(text, t);
      WalkEncoded(text, [], t, BuildCodes(t));
      assert Encode(text, BuildCodes(t)) + [] == Encode(text, BuildCodes(t));
    }
  }

  lemma DecodeEncodeLeafRoot(text: seq<byte>, t: Tree)
    requires t.Leaf?
    requires forall i :: 0 <= i < |text| ==> text[i] in Symbols(t)
    ensures Decode(Encode(text, BuildCodes(t)), t) == text
  {
    EncodeOnLeafRoot(text, t);
  }

  /** A trailing incomplete path is dropped: decoding the encoded text
      followed by part of a code yields just the text. */
  lemma {:induction false} DecodeDropsIncompleteTail(text: seq<byte>, t: Tree, b: byte, p: Bits)
    requires t.Internal?
    requires forall i :: 0 <= i < |text| ==> text[i] in Symbols(t)
    requires b in Symbols(t) && p < BuildCodes(t)[b]
    ensures Decode(Encode(text, BuildCodes(t)) + p, t) == text
  {
    BuiltCodesReach(text, t);
    WalkEncoded(text, p, t, BuildCodes(t));
    WalkPartialCode(p, BuildCodes(t)[b], t, t, b);
    assert text + [] == text;
  }

  /** The source's decode crashes on the encoding of any non-empty text made
      of one repeated byte: its tree is a single leaf. */
  lemma {:induction false} SingleSymbolDecodeFails(text: seq<byte>)
    requires |text| > 0
    requires forall i :: 0 <= i < |text| ==> text[i] == text[0]
    ensures var t := BuildTree(Frequencies(text));
      DecodeAsWritten(Encode(text, BuildCodes(t)), t) == None
  {
    var m := Frequencies(text);
    assert m.Keys == {text[0]} by {
      forall b | b in m ensures b == text[0] {
        var i :| 0 <= i < |text| && text[i] == b;
      }
    }
    assert |m| == 1;
    var t := BuildTree(m);
    assert Encode(text, BuildCodes(t)) != [];
    AsWrittenFailsOnLeafRoot(Encode(text, BuildCodes(t)), t);
  }

  /** Decoding with a single-leaf root yields one byte per bit. */
  lemma {:induction false} SingleSymbolDecodes(text: seq<byte>)
    requires |text| > 0
    requires forall i :: 0 <= i < |text| ==> text[i] == text[0]
    ensures var t := BuildTree(Frequencies(text));
      Decode(Encode(text, BuildCodes(t)), t) == text
  {
    var m := Frequencies(text);
    var t := BuildTree(m);
    assert text[0] in m;
    forall i | 0 <= i < |text| ensures text[i] in Symbols(t) {
      assert multiset(Symbols(t))[text[i]] == 1;
    }
    DecodeEncode(text, t);
  }
}

=== FILE: container.dfy ===
/**
 The compressed container written by encodeFile and read by decodeFile:
 the padding as a 4-byte int, the table size as a 4-byte int, one entry per
 table key (the key byte, then its count as a 4-byte int), then the packed
 payload bytes. Ints are little-endian two's complement.
 */
module ContainerFormat {
  import opened Base
  import opened Frequency

  const TWO31: int := 0x8000_0000
  const TWO32: int := 0x1_0000_0000

  /** The values an `int` can hold. */
  predicate IsInt32(x: int) {
    -TWO31 <= x < TWO31
  }

  /** The bytes a 4-byte int write produces: the value reduced modulo 2^32,
      least significant byte first. */
  function Int32Bytes(x: int): (bs: seq<byte>)
    ensures |bs| == 4
  {
    var u := x % TWO32;
    [u % 256, (u / 256) % 256, (u / 65536) % 256, u / 16777216]
  }

  /** The unsigned value of four little-endian bytes. */
  function Unsigned32(bs: seq<byte>): (u: int)
    requires |bs| >= 4
    ensures 0 <= u < TWO32
  {
    bs[0] as int + 256 * bs[1] as int + 65536 * bs[2] as int + 16777216 * bs[3] as int
  }

  /** A 4-byte int read: four little-endian bytes as a two's complement value. */
  function ReadInt32(bs: seq<byte>): (v: int)
    requires |bs| >= 4
    ensures IsInt32(v)
    ensures (v - Unsigned32(bs)) % TWO32 == 0
  {
    var u := Unsigned32(bs);
    if u < TWO31 then u else u - TWO32
  }

  /** The digits of a value below 2^32 in base 256 rebuild it. */
  lemma Base256(u: int)
    requires 0 <= u < TWO32
    ensures Unsigned32([u % 256, (u / 256) % 256, (u / 65536) % 256, u / 16777216]) == u
  {
    var a := u / 256;
    var b := a / 256;
    var c := b / 256;
    assert u == u % 256 + 256 * a;
    assert a == a % 256 + 256 * b;
    assert b == b % 256 + 256 * c;
    assert b == u / 65536;
    assert c == u / 16777216;
  }

  /** Reading back what a write of `x` produced gives `x` wrapped into int range. */
  lemma {:induction false} ReadInt32Bytes(x: int)
    ensures (ReadInt32(Int32Bytes(x)) - x) % TWO32 == 0
    ensures IsInt32(x) ==> ReadInt32(Int32Bytes(x)) == x
  {
    var u := x % TWO32;
    Base256(u);
  }

  /** Writing a value that was read gives back the same four bytes. */
  lemma {:induction false} Int32BytesOfRead(bs: seq<byte>)
    requires |bs| == 4
    ensures Int32Bytes(ReadInt32(bs)) == bs
  {
    var u := Unsigned32(bs);
    var hi2 := bs[2] as int + 256 * bs[3] as int;
    var hi1 := bs[1] as int + 256 * hi2;
    assert u == bs[0] as int + 256 * hi1;
    assert ReadInt32(bs) % TWO32 == u;
    DivMod256(bs[0], hi1);
    DivMod256(bs[1], hi2);
    DivMod256(bs[2], bs[3]);
    assert u / 65536 == (u / 256) / 256;
    assert u / 16777216 == ((u / 256) / 256) / 256;
  }

  /** One base-256 digit split off the bottom of a number. */
  lemma DivMod256(lo: byte, hi: nat)
    ensures (lo + 256 * hi) % 256 == lo && (lo + 256 * hi) / 256 == hi
  {
  }

  /** The fields of a container. */
  datatype Container = Container(padding: int, table: seq<(byte, int)>, payload: seq<byte>)

  /** The table entries, five bytes each. */
  function TableBytes(table: seq<(byte, int)>): (bs: seq<byte>)
    ensures |bs| == 5 * |table|
  {
    if table == [] then [] else [table[0].0] + Int32Bytes(table[0].1) + TableBytes(table[1..])
  }

  /** The container's bytes, with the table size written as an int. */
  function Serialize(c: Container): (data: seq<byte>)
    ensures |data| == 8 + 5 * |c.table| + |c.payload|
  {
    Int32Bytes(c.padding) + Int32Bytes(|c.table|) + TableBytes(c.table) + c.payload
  }

  /** Reads `n` table entries from the front of `bs`. */
  function ParseTable(bs: seq<byte>, n: nat): (table: seq<(byte, int)>)
    requires |bs| >= 5 * n
    ensures |table| == n
    ensures forall i :: 0 <= i < n ==> IsInt32(table[i].1)
  {
    if n == 0 then [] else [(bs[0], ReadInt32(bs[1..5]))] + ParseTable(bs[5..], n - 1)
  }

  /** The number of entries decodeFile's loop reads for a declared table size. */
  function EntryCount(size: int): nat {
    if size < 0 then 0 else size
  }

  /** decodeFile's reads: the padding, the table size, that many entries and
      the rest as payload. Data too short for what the header declares is
      corrupt. */
  function Parse(data: seq<byte>): (r: Result<Container>)
    ensures r.Success? ==> IsInt32(r.value.padding)
    ensures r.Success? ==> |data| == 8 + 5 * |r.value.table| + |r.value.payload|
    ensures r.Success? ==> r.value.payload == data[|data| - |r.value.payload|..]
  {
    if |data| < 8 then Failure(CorruptContainer)
    else
      var n := EntryCount(ReadInt32(data[4..8]));
      if |data| < 8 + 5 * n then Failure(CorruptContainer)
      else Success(Container(ReadInt32(data[..4]), ParseTable(data[8..], n), data[8 + 5 * n..]))
  }

  /** A container shorter than its header, or than the table its header
      declares, is rejected; every other one parses. */
  lemma ParseFailsExactlyOnTruncation(data: seq<byte>)
    ensures Parse(data).Failure? <==>
              |data| < 8 || |data| < 8 + 5 * EntryCount(ReadInt32(data[4..8]))
    ensures Parse(data).Failure? ==> Parse(data).error == CorruptContainer
  {
  }

  /** Whatever the counts of the table, they fit the int fields. */
  ghost predicate CountsFit(table: seq<(byte, int)>) {
    forall i :: 0 <= i < |table| ==> IsInt32(table[i].1)
  }

  lemma {:induction false} ParseTableBytes(table: seq<(byte, int)>, rest: seq<byte>)
    requires CountsFit(table)
    ensures ParseTable(TableBytes(table) + rest, |table|) == table
    decreases |table|
  {
    if table != [] {
      var tail := table[1..];
      assert CountsFit(tail) by {
        forall i | 0 <= i < |tail| ensures IsInt32(tail[i].1) {
          assert tail[i] == table[i + 1];
        }
      }
      ParseTableBytes(tail, rest);
      assert TableBytes(table) + rest == [table[0].0] + Int32Bytes(table[0].1) + (TableBytes(tail) + rest);
      ParseTableCons(table[0], TableBytes(tail) + rest, |tail|);
      assert table == [table[0]] + tail;
    }
  }

  /** An entry's five bytes in front of more entries read back as that entry
      in front of them. */
  lemma ParseTableCons(e: (byte, int), rest: seq<byte>, n: nat)
    requires IsInt32(e.1) && |rest| >= 5 * n
    ensures ParseTable([e.0] + Int32Bytes(e.1) + rest, n + 1) == [e] + ParseTable(rest, n)
  {
    var bs := [e.0] + Int32Bytes(e.1) + rest;
    assert bs[1..5] == Int32Bytes(e.1);
    assert bs[5..] == rest;
    ReadInt32Bytes(e.1);
  }

  /** Parsing a written container gives back its fields, as long as they fit
      their int fields. */
  lemma {:induction false} ParseSerialize(c: Container)
    requires IsInt32(c.padding) && |c.table| < TWO31 && CountsFit(c.table)
    ensures Parse(Serialize(c)) == Success(c)
  {
    var data := Serialize(c);
    assert data[..4] == Int32Bytes(c.padding);
    assert data[4..8] == Int32Bytes(|c.table|);
    ReadInt32Bytes(c.padding);
    ReadInt32Bytes(|c.table|);
    assert data[8..] == TableBytes(c.table) + c.payload;
    ParseTableBytes(c.table, c.payload);
  }

  lemma {:induction false} TableBytesOfParse(bs: seq<byte>, n: nat)
    requires |bs| >= 5 * n
    ensures TableBytes(ParseTable(bs, n)) == bs[..5 * n]
    decreases n
  {
    if n > 0 {
      TableBytesOfParse(bs[5..], n - 1);
      Int32BytesOfRead(bs[1..5]);
      assert bs[..5 * n] == [bs[0]] + bs[1..5] + bs[5..][..5 * (n - 1)];
    }
  }

  /** A container whose header declares a non-negative table size is written
      back byte for byte. */
  lemma {:induction false} SerializeParse(data: seq<byte>)
    requires Parse(data).Success?
    requires ReadInt32(data[4..8]) >= 0
    ensures Serialize(Parse(data).value) == data
  {
    var c := Parse(data).value;
    var n := |c.table|;
    Int32BytesOfRead(data[..4]);
    Int32BytesOfRead(data[4..8]);
    TableBytesOfParse(data[8..], n);
    assert data == data[..4] + data[4..8] + data[8..][..5 * n] + data[8 + 5 * n..];
  }

  /** freq[ch] = frequency for each entry in turn: the map of the table, a
      later entry for a key overwriting an earlier one. */
  function TableToMap(table: seq<(byte, int)>): (m: FreqTable)
    ensures |table| > 0 ==> table[|table| - 1].0 in m && m[table[|table| - 1].0] == table[|table| - 1].1
    decreases |table|
  {
    if table == [] then map[]
    else
      var last := table[|table| - 1];
      TableToMap(table[..|table| - 1])[last.0 := last.1]
  }

  /** The keys of the map are the keys of the entries. */
  lemma {:induction false} TableToMapKeys(table: seq<(byte, int)>)
    ensures forall b :: b in TableToMap(table) <==> b in KeysOf(table)
    decreases |table|
  {
    if table != [] {
      var init := table[..|table| - 1];
      TableToMapKeys(init);
      KeysOfSnoc(table);
    }
  }

  /** The keys of a table are those of all but its last entry, and the last one's. */
  lemma {:induction false} KeysOfSnoc(table: seq<(byte, int)>)
    requires table != []
    ensures forall b :: b in KeysOf(table) <==> b in KeysOf(table[..|table| - 1]) || b == table[|table| - 1].0
  {
    var init, last := table[..|table| - 1], table[|table| - 1];
    assert table == init + [last];
    KeysOfAppend(init, [last]);
    assert KeysOf([last]) == [last.0];
    var keys := KeysOf(init) + [last.0];
    assert KeysOf(table) == keys;
    forall b ensures b in keys <==> b in KeysOf(init) || b == last.0 {
    }
  }

  /** Entry `i` is the last entry of the table for its key. */
  ghost predicate LastFor(table: seq<(byte, int)>, i: int)
    requires 0 <= i < |table|
  {
    forall j :: i < j < |table| ==> table[j].0 != table[i].0
  }

  /** The count of a key is the one of its last entry. */
  lemma {:induction false} TableToMapLast(table: seq<(byte, int)>, i: int)
    requires 0 <= i < |table| && LastFor(table, i)
    ensures table[i].0 in TableToMap(table) && TableToMap(table)[table[i].0] == table[i].1
    decreases |table|
  {
    var init := table[..|table| - 1];
    if i < |table| - 1 {
      assert init[i] == table[i];
      assert LastFor(init, i);
      TableToMapLast(init, i);
    }
  }

  /** Reading back the sorted entries of a table rebuilds the table. */
  lemma TableToMapEntries(m: FreqTable)
    ensures TableToMap(Entries(m)) == m
  {
    var r := TableToMap(Entries(m));
    EntriesRebuildCounts(m);
    EntriesRebuildNoMore(m);
    assert r.Keys == m.Keys;
  }

  lemma EntriesRebuildCounts(m: FreqTable)
    ensures forall b :: b in m ==> b in TableToMap(Entries(m)) && TableToMap(Entries(m))[b] == m[b]
  {
    forall b | b in m ensures b in TableToMap(Entries(m)) && TableToMap(Entries(m))[b] == m[b] {
      var i := EntryIndex(m, b);
      EntryIsLast(m, i);
      TableToMapLast(Entries(m), i);
    }
  }

  lemma EntriesRebuildNoMore(m: FreqTable)
    ensures forall b :: b in TableToMap(Entries(m)) ==> b in m
  {
    TableToMapKeys(Entries(m));
    forall b | b in TableToMap(Entries(m)) ensures b in m {
      KeyOfEntries(m, b);
    }
  }

  /** Where a key of the table sits among its sorted entries. */
  lemma EntryIndex(m: FreqTable, b: byte) returns (i: nat)
    requires b in m
    ensures i < |Entries(m)| && Entries(m)[i] == (b, m[b])
  {
    var es := Entries(m);
    assert (b, m[b]) in es;
    i :| 0 <= i < |es| && es[i] == (b, m[b]);
  }

  /** Every key of the sorted entries is a key of the table. */
  lemma KeyOfEntries(m: FreqTable, b: byte)
    requires b in KeysOf(Entries(m))
    ensures b in m
  {
    var es := Entries(m);
    var i :| 0 <= i < |es| && KeysOf(es)[i] == b;
    assert es[i] in es;
  }

  /** The sorted entries list each key once, so each entry is its key's last. */
  lemma EntryIsLast(m: FreqTable, i: int)
    requires 0 <= i < |Entries(m)|
    ensures LastFor(Entries(m), i)
  {
    var es := Entries(m);
    forall j | i < j < |es| ensures es[j].0 != es[i].0 {
      assert SignedChar(es[i].0) < SignedChar(es[j].0);
    }
  }
}

=== FILE: frequency.dfy ===
/**
 Frequency counting (`buildFrequency`) and the frequency table's entries in
 the order the tree builder sorts them into.
 */
module Frequency {
  import opened Base

  /** Byte value to occurrence count. Counts are signed because the decoder
      reads them verbatim from the container. */
  type FreqTable = map<byte, int>

  /** The count of `b` in `m`, zero when `b` is absent (what `freq[b]` reads). */
  function CountOf(m: FreqTable, b: byte): int {
    if b in m then m[b] else 0
  }

  /** buildFrequency: one pass over the text, incrementing the count of each byte. */
  function Frequencies(text: seq<byte>): (freq: FreqTable)
    ensures forall b :: b in freq <==> b in text
    ensures forall b :: b in freq ==> freq[b] == multiset(text)[b]
    decreases |text|
  {
    if text == [] then map[]
    else
      var prefix := text[..|text| - 1];
      var ch := text[|text| - 1];
      assert text == prefix + [ch];
      var prev := Frequencies(prefix);
      prev[ch := CountOf(prev, ch) + 1]
  }

  /** The sum of the counts of `m` over the bytes listed in `order`. */
  function SumOver(order: seq<byte>, m: FreqTable): int {
    if order == [] then 0 else CountOf(m, order[0]) + SumOver(order[1..], m)
  }

  /** The sum of all counts of `m`. */
  function Total(m: FreqTable): int {
    SumOver(SignedOrder(), m)
  }

  /** Changing the count of one byte changes the sum by the difference, when
      that byte is listed at most once. */
  lemma {:induction false} SumOverUpdate(order: seq<byte>, m: FreqTable, ch: byte, v: int)
    requires NoDuplicates(order)
    ensures SumOver(order, m[ch := v]) == SumOver(order, m) + (if ch in order then v - CountOf(m, ch) else 0)
    decreases |order|
  {
    if order != [] {
      assert NoDuplicates(order[1..]);
      SumOverUpdate(order[1..], m, ch, v);
      if order[0] == ch {
        assert ch !in order[1..];
      } else {
        assert ch in order <==> ch in order[1..];
      }
    }
  }

  /** The counts of buildFrequency sum to the length of the text. */
  lemma {:induction false} TotalIsLength(text: seq<byte>)
    ensures Total(Frequencies(text)) == |text|
    decreases |text|
  {
    SignedOrderEnumerates();
    if text == [] {
      SumOverEmpty(SignedOrder());
    } else {
      var prefix := text[..|text| - 1];
      var ch := text[|text| - 1];
      var prev := Frequencies(prefix);
      TotalIsLength(prefix);
      SumOverUpdate(SignedOrder(), prev, ch, CountOf(prev, ch) + 1);
    }
  }

  lemma {:induction false} SumOverEmpty(order: seq<byte>)
    ensures SumOver(order, map[]) == 0
    decreases |order|
  {
    if order != [] {
      SumOverEmpty(order[1..]);
    }
  }

  /** The (byte, count) entries of `m` for the bytes of `order`, in that order. */
  function EntriesOver(order: seq<byte>, m: FreqTable): (entries: seq<(byte, int)>)
    ensures |entries| <= |order|
    ensures forall e :: e in entries ==> e.0 in order && e.0 in m && e.1 == m[e.0]
    ensures forall b :: b in order && b in m ==> (b, m[b]) in entries
  {
    if order == [] then []
    else (if order[0] in m then [(order[0], m[order[0]])] else []) + EntriesOver(order[1..], m)
  }

  /** The keys of a list of entries, in order. */
  function KeysOf(entries: seq<(byte, int)>): (keys: seq<byte>)
    ensures |keys| == |entries|
    ensures forall i :: 0 <= i < |entries| ==> keys[i] == entries[i].0
  {
    if entries == [] then [] else [entries[0].0] + KeysOf(entries[1..])
  }

  /** The sum of the counts of a list of entries. */
  function SumCounts(entries: seq<(byte, int)>): int {
    if entries == [] then 0 else entries[0].1 + SumCounts(entries[1..])
  }

  /** Keys strictly ascending by signed `char`. */
  ghost predicate AscendingKeys(entries: seq<(byte, int)>) {
    forall i, j :: 0 <= i < j < |entries| ==> SignedChar(entries[i].0) < SignedChar(entries[j].0)
  }

  /** The entries of a frequency table sorted by their byte read as a signed
      `char`: the vector the tree builder sorts before filling its queue. */
  function Entries(m: FreqTable): (entries: seq<(byte, int)>)
    ensures forall e :: e in entries ==> e.0 in m && e.1 == m[e.0]
    ensures forall b :: b in m ==> (b, m[b]) in entries
    ensures AscendingKeys(entries)
    ensures |entries| <= 256
  {
    SignedOrderEnumerates();
    EntriesOverAscending(SignedOrder(), m);
    EntriesOver(SignedOrder(), m)
  }

  /** Entries taken over a list sorted by signed `char` are themselves sorted. */
  lemma {:induction false} EntriesOverAscending(order: seq<byte>, m: FreqTable)
    requires forall i, j :: 0 <= i < j < |order| ==> SignedChar(order[i]) < SignedChar(order[j])
    ensures AscendingKeys(EntriesOver(order, m))
    decreases |order|
  {
    if order != [] {
      var tail := order[1..];
      assert forall i, j :: 0 <= i < j < |tail| ==> SignedChar(tail[i]) < SignedChar(tail[j]) by {
        forall i, j | 0 <= i < j < |tail|
          ensures SignedChar(tail[i]) < SignedChar(tail[j])
        {
          assert tail[i] == order[i + 1] && tail[j] == order[j + 1];
        }
      }
      EntriesOverAscending(tail, m);
      if order[0] in m {
        HeadBeforeRest(order, m);
        PrependAscending((order[0], m[order[0]]), EntriesOver(tail, m));
      }
    }
  }

  lemma HeadBeforeRest(order: seq<byte>, m: FreqTable)
    requires order != []
    requires forall i, j :: 0 <= i < j < |order| ==> SignedChar(order[i]) < SignedChar(order[j])
    ensures forall e :: e in EntriesOver(order[1..], m) ==> SignedChar(order[0]) < SignedChar(e.0)
  {
    var tail := order[1..];
    forall e | e in EntriesOver(tail, m)
      ensures SignedChar(order[0]) < SignedChar(e.0)
    {
      var j :| 0 <= j < |tail| && tail[j] == e.0;
      assert order[j + 1] == e.0;
    }
  }

  lemma PrependAscending(head: (byte, int), rest: seq<(byte, int)>)
    requires AscendingKeys(rest)
    requires forall e :: e in rest ==> SignedChar(head.0) < SignedChar(e.0)
    ensures AscendingKeys([head] + rest)
  {
    var es := [head] + rest;
    forall i, j | 0 <= i < j < |es|
      ensures SignedChar(es[i].0) < SignedChar(es[j].0)
    {
      assert es[j] == rest[j - 1];
      if i > 0 {
        assert es[i] == rest[i - 1];
      } else {
        assert rest[j - 1] in rest;
      }
    }
  }

  lemma {:induction false} KeysOfAppend(a: seq<(byte, int)>, b: seq<(byte, int)>)
    ensures KeysOf(a + b) == KeysOf(a) + KeysOf(b)
    decreases |a|
  {
    if a != [] {
      assert (a + b)[0] == a[0];
      assert (a + b)[1..] == a[1..] + b;
      KeysOfAppend(a[1..], b);
    } else {
      assert a + b == b;
    }
  }

  /** Over a list without repeats, each listed key of the table appears once. */
  lemma {:induction false} EntriesOverKeysOnce(order: seq<byte>, m: FreqTable, b: byte)
    requires NoDuplicates(order)
    ensures multiset(KeysOf(EntriesOver(order, m)))[b] == if b in m && b in order then 1 else 0
    decreases |order|
  {
    if order != [] {
      assert NoDuplicates(order[1..]);
      EntriesOverKeysOnce(order[1..], m, b);
      var head := if order[0] in m then [(order[0], m[order[0]])] else [];
      KeysOfAppend(head, EntriesOver(order[1..], m));
      assert b in order <==> b == order[0] || b in order[1..];
      if b == order[0] {
        assert b !in order[1..];
      }
    }
  }

  /** The keys of the sorted entries are the table's keys, each exactly once. */
  lemma {:induction false} EntryKeysOnce(m: FreqTable)
    ensures forall b :: multiset(KeysOf(Entries(m)))[b] == if b in m then 1 else 0
  {
    SignedOrderEnumerates();
    forall b: byte
      ensures multiset(KeysOf(Entries(m)))[b] == if b in m then 1 else 0
    {
      EntriesOverKeysOnce(SignedOrder(), m, b);
    }
  }

  /** The sorted entries list each key of the table once: as many entries as keys. */
  lemma EntriesCount(m: FreqTable)
    ensures |Entries(m)| == |m|
  {
    var keys := KeysOf(Entries(m));
    EntryKeysOnce(m);
    assert multiset(keys) == multiset(m.Keys);
  }

  /** The counts of the sorted entries add up to the table's total. */
  lemma {:induction false} EntriesTotal(m: FreqTable)
    ensures SumCounts(Entries(m)) == Total(m)
  {
    EntriesOverSum(SignedOrder(), m);
  }

  lemma {:induction false} EntriesOverSum(order: seq<byte>, m: FreqTable)
    ensures SumCounts(EntriesOver(order, m)) == SumOver(order, m)
    decreases |order|
  {
    if order != [] {
      EntriesOverSum(order[1..], m);
      var head := if order[0] in m then [(order[0], m[order[0]])] else [];
      SumCountsAppend(head, EntriesOver(order[1..], m));
    }
  }

  lemma {:induction false} SumCountsAppend(a: seq<(byte, int)>, b: seq<(byte, int)>)
    ensures SumCounts(a + b) == SumCounts(a) + SumCounts(b)
    decreases |a|
  {
    if a != [] {
      assert (a + b)[0] == a[0];
      assert (a + b)[1..] == a[1..] + b;
      SumCountsAppend(a[1..], b);
      assert SumCounts(a + b) == a[0].1 + SumCounts(a[1..] + b);
    } else {
      assert a + b == b;
    }
  }

  /** A byte occurs in a text at most as often as the text is long. */
  lemma {:induction false} OccurrencesBounded(text: seq<byte>, b: byte)
    ensures multiset(text)[b] <= |text|
    decreases |text|
  {
    if text != [] {
      assert text == [text[0]] + text[1..];
      OccurrencesBounded(text[1..], b);
    }
  }
}

=== FILE: packing.dfy ===
/**
 Packing a bit string into bytes (`pack_bits`) and back (`unpack_bits`).
 Bits fill each byte from its most significant end; the last byte is padded
 with zero bits, and the count of padding bits travels with the bytes.
 */
module BitPacking {
  import opened Base

  /** CompressedData: the packed bytes and the number of padding bits. */
  datatype Packed = Packed(bytes: seq<byte>, padding: int)

  function Pow2(n: nat): (p: nat)
    ensures p >= 1
  {
    if n == 0 then 1 else 2 * Pow2(n - 1)
  }

  function BitValue(x: bool): nat {
    if x then 1 else 0
  }

  /** The number whose binary digits, most significant first, are `c`. */
  function BitsValue(c: Bits): (v: nat)
    ensures v < Pow2(|c|)
    decreases |c|
  {
    if c == [] then 0 else 2 * BitsValue(c[..|c| - 1]) + BitValue(c[|c| - 1])
  }

  /** The low `n` binary digits of `v`, most significant first. */
  function LowBits(v: nat, n: nat): (c: Bits)
    ensures |c| == n
  {
    if n == 0 then [] else LowBits(v / 2, n - 1) + [v % 2 == 1]
  }

  /** bitset<8>(b).to_string(): the eight bits of a byte, most significant first. */
  function ByteBits(b: byte): (c: Bits)
    ensures |c| == 8
  {
    LowBits(b, 8)
  }

  /** Reading the digits of a value back gives the digits. */
  lemma {:induction false} LowBitsOfValue(c: Bits)
    ensures LowBits(BitsValue(c), |c|) == c
    decreases |c|
  {
    if c != [] {
      var init := c[..|c| - 1];
      LowBitsOfValue(init);
      var v, w := BitsValue(c), BitsValue(init);
      assert v == 2 * w + BitValue(c[|c| - 1]);
      assert v / 2 == w && (v % 2 == 1 <==> c[|c| - 1]);
      assert c == init + [c[|c| - 1]];
    }
  }

  /** The digits of a value that fits in `n` bits read back as the value. */
  lemma {:induction false} ValueOfLowBits(v: nat, n: nat)
    requires v < Pow2(n)
    ensures BitsValue(LowBits(v, n)) == v
  {
    if n > 0 {
      var h := v / 2;
      assert v == 2 * h + v % 2;
      assert h < Pow2(n - 1);
      ValueOfLowBits(h, n - 1);
      var c := LowBits(v, n);
      assert c == LowBits(h, n - 1) + [v % 2 == 1];
      assert c[..|c| - 1] == LowBits(h, n - 1);
      assert BitValue(c[|c| - 1]) == v % 2;
      assert BitsValue(c) == 2 * BitsValue(LowBits(h, n - 1)) + v % 2;
    }
  }

  /** The eight bits of a byte read back as the byte. */
  lemma ByteBitsValue(b: byte)
    ensures BitsValue(ByteBits(b)) == b
  {
    assert Pow2(8) == 256;
    ValueOfLowBits(b, 8);
  }

  /** The padding pack_bits computes for `n` bits. */
  function PaddingFor(n: nat): int {
    (8 - n % 8) % 8
  }

  /** The eight bits that make up byte `j` of the packed form: the next bits
      of the string, topped up with zero bits at the end. */
  function Chunk(bits: Bits, j: nat): (c: Bits)
    requires 8 * j < |bits|
    ensures |c| == 8
  {
    var hi := if 8 * j + 8 <= |bits| then 8 * j + 8 else |bits|;
    bits[8 * j..hi] + Zeros(8 - (hi - 8 * j))
  }

  /** The eight bits of a chunk, read as a byte. */
  function ChunkByte(bits: Bits, j: nat): byte
    requires 8 * j < |bits|
  {
    assert Pow2(8) == 256;
    BitsValue(Chunk(bits, j))
  }

  /** pack_bits: the bytes that hold the bits in order, and the count of zero
      bits appended to fill the last byte. */
  function Pack(bits: Bits): (p: Packed)
    ensures |p.bytes| == (|bits| + 7) / 8
    ensures p.padding == 8 * |p.bytes| - |bits| && 0 <= p.padding < 8
    ensures forall i :: 0 <= i < |bits| ==> ByteBits(p.bytes[i / 8])[i % 8] == bits[i]
    ensures forall i :: |bits| <= i < 8 * |p.bytes| ==> !ByteBits(p.bytes[i / 8])[i % 8]
  {
    var k := (|bits| + 7) / 8;
    ByteCount(|bits|);
    var bytes := seq(k, j requires 0 <= j < k => ChunkByte(bits, j));
    PackContents(bits, bytes);
    Packed(bytes, PaddingFor(|bits|))
  }

  /** `n` bits fill `(n + 7) / 8` bytes, the last one with the padding. */
  lemma ByteCount(n: nat)
    ensures forall j :: 0 <= j < (n + 7) / 8 ==> 8 * j < n
    ensures 8 * ((n + 7) / 8) == n + PaddingFor(n)
  {
  }

  lemma PackContents(bits: Bits, bytes: seq<byte>)
    requires |bytes| == (|bits| + 7) / 8
    requires PackedPrefix(bits, bytes)
    ensures forall i :: 0 <= i < |bits| ==> ByteBits(bytes[i / 8])[i % 8] == bits[i]
    ensures forall i :: |bits| <= i < 8 * |bytes| ==> !ByteBits(bytes[i / 8])[i % 8]
  {
    forall i | 0 <= i < 8 * |bytes|
      ensures ByteBits(bytes[i / 8])[i % 8] == (i < |bits| && bits[i])
    {
      var j, k := i / 8, i % 8;
      assert i == 8 * j + k;
      ChunkBits(bits, j, bytes[j]);
      ChunkAt(bits, j, k);
    }
  }

  /** The bits of a packed byte are the bits of its chunk. */
  lemma ChunkBits(bits: Bits, j: nat, b: byte)
    requires 8 * j < |bits| && b == ChunkByte(bits, j)
    ensures ByteBits(b) == Chunk(bits, j)
  {
    LowBitsOfValue(Chunk(bits, j));
  }

  /** Bit `k` of chunk `j` is bit `8 * j + k` of the string, or a zero bit
      past its end. */
  lemma ChunkAt(bits: Bits, j: nat, k: nat)
    requires 8 * j < |bits| && k < 8
    ensures Chunk(bits, j)[k] == (8 * j + k < |bits| && bits[8 * j + k])
  {
  }

  /** The bit strings of the bytes, concatenated in order. */
  function Expand(bytes: seq<byte>): (bits: Bits)
    ensures |bits| == 8 * |bytes|
  {
    if bytes == [] then [] else ByteBits(bytes[0]) + Expand(bytes[1..])
  }

  /** Bit `i` of the expansion is bit `i % 8` of byte `i / 8`. */
  lemma {:induction false} ExpandAt(bytes: seq<byte>, i: nat)
    requires i < 8 * |bytes|
    ensures Expand(bytes)[i] == ByteBits(bytes[i / 8])[i % 8]
    decreases |bytes|
  {
    if i >= 8 {
      ExpandAt(bytes[1..], i - 8);
      assert bytes[1..][(i - 8) / 8] == bytes[i / 8];
    }
  }

  /** unpack_bits: the bits of all bytes with the padding cut off the end. The
      cut is `length - padding` computed on an unsigned size, so a padding
      outside 0..length wraps around and keeps every bit. */
  function Unpack(p: Packed): (bits: Bits)
    ensures 0 <= p.padding <= 8 * |p.bytes| ==> |bits| == 8 * |p.bytes| - p.padding
    ensures !(0 <= p.padding <= 8 * |p.bytes|) ==> |bits| == 8 * |p.bytes|
    ensures forall i :: 0 <= i < |bits| ==> bits[i] == ByteBits(p.bytes[i / 8])[i % 8]
  {
    var all := Expand(p.bytes);
    forall i | 0 <= i < |all| ensures all[i] == ByteBits(p.bytes[i / 8])[i % 8] {
      ExpandAt(p.bytes, i);
    }
    if 0 <= p.padding <= |all| then all[..|all| - p.padding] else all
  }

  /** unpack_bits(pack_bits(bits)) == bits. */
  lemma UnpackPack(bits: Bits)
    ensures Unpack(Pack(bits)) == bits
  {
  }

  /** A packed form whose padding bits are zero and fit in its last byte is
      what packing its unpacked bits gives back. */
  lemma PackUnpack(p: Packed)
    requires 0 <= p.padding < 8
    requires p.bytes == [] ==> p.padding == 0
    requires forall i :: 8 * |p.bytes| - p.padding <= i < 8 * |p.bytes| ==> !ByteBits(p.bytes[i / 8])[i % 8]
    ensures Pack(Unpack(p)) == p
  {
    var bits := Unpack(p);
    var q := Pack(bits);
    assert |q.bytes| == |p.bytes|;
    forall j | 0 <= j < |p.bytes| ensures q.bytes[j] == p.bytes[j] {
      assert ByteBits(q.bytes[j]) == ByteBits(p.bytes[j]) by {
        forall k | 0 <= k < 8 ensures ByteBits(q.bytes[j])[k] == ByteBits(p.bytes[j])[k] {
          var i := 8 * j + k;
          assert i / 8 == j && i % 8 == k;
        }
      }
      ByteBitsValue(q.bytes[j]);
      ByteBitsValue(p.bytes[j]);
    }
  }

  /** pack_bits as the source writes it: one pass over the bits shifting each
      into the current byte, flushing every eighth, then shifting the last
      partial byte left by the padding. Shifts are truncated to eight bits as
      the assignment back to an unsigned char does. */
  method PackBits(bits: Bits) returns (p: Packed)
    ensures p == Pack(bits)
    ensures Unpack(p) == bits
  {
    var padding := PaddingFor(|bits|);
    var bytes, count, current := ShiftBitsIn(bits);
    PackedAfterLoop(bits, bytes, count, current);
    if padding > 0 {
      current := (current * Pow2(padding)) % 256;
      bytes := bytes + [current];
    }
    p := Packed(bytes, padding);
    UnpackPack(bits);
  }

  /** The loop of pack_bits: every complete group of eight bits is flushed as
      a byte; the last `count` bits remain in `current`. */
  method ShiftBitsIn(bits: Bits) returns (bytes: seq<byte>, count: nat, current: byte)
    ensures count < 8 && |bits| == 8 * |bytes| + count
    ensures PackedPrefix(bits, bytes)
    ensures current == BitsValue(bits[8 * |bytes|..|bits|])
  {
    bytes, current, count := [], 0, 0;
    var i := 0;
    while i < |bits|
      invariant 0 <= count < 8 && i == 8 * |bytes| + count <= |bits|
      invariant PackedPrefix(bits, bytes)
      invariant current == BitsValue(bits[8 * |bytes|..i])
    {
      current := ShiftInBit(bits, 8 * |bytes|, i, current);
      count := count + 1;
      i := i + 1;
      if count == 8 {
        Flush(bits, bytes, i, current);
        bytes := bytes + [current];
        current := 0;
        count := 0;
        assert bits[i..i] == [];
      }
    }
  }

  /** `bytes` are the first chunks of `bits`, each read as a byte. */
  ghost predicate PackedPrefix(bits: Bits, bytes: seq<byte>) {
    8 * |bytes| <= |bits| + 7 &&
    forall j :: 0 <= j < |bytes| ==> 8 * j < |bits| && bytes[j] == ChunkByte(bits, j)
  }

  /** What the loop has built when the bits run out is the packed form. */
  lemma {:induction false} PackedAfterLoop(bits: Bits, bytes: seq<byte>, count: nat, current: nat)
    requires count < 8 && |bits| == 8 * |bytes| + count
    requires PackedPrefix(bits, bytes)
    requires current == BitsValue(bits[8 * |bytes|..|bits|])
    ensures PaddingFor(|bits|) == 0 ==> count == 0 && Pack(bits) == Packed(bytes, 0)
    ensures PaddingFor(|bits|) > 0 ==>
              Pack(bits) == Packed(bytes + [(current * Pow2(PaddingFor(|bits|))) % 256], PaddingFor(|bits|))
  {
    PaddingOfCount(|bytes|, count);
    if count > 0 {
      var pad := PaddingFor(|bits|);
      assert pad == 8 * |bytes| + 8 - |bits|;
      LastChunk(bits, |bytes|);
      var last := (current * Pow2(pad)) % 256;
      ExtendPrefix(bits, bytes, last);
      PrefixIsPack(bits, bytes + [last]);
    } else {
      PrefixIsPack(bits, bytes);
    }
  }

  /** Chunks packed up to the end of the bits are the packed bytes. */
  lemma PrefixIsPack(bits: Bits, bytes: seq<byte>)
    requires PackedPrefix(bits, bytes) && |bytes| == (|bits| + 7) / 8
    ensures Pack(bits).bytes == bytes
  {
  }

  /** One more chunk extends the packed prefix. */
  lemma ExtendPrefix(bits: Bits, bytes: seq<byte>, b: byte)
    requires PackedPrefix(bits, bytes) && 8 * |bytes| < |bits|
    requires b == ChunkByte(bits, |bytes|)
    ensures PackedPrefix(bits, bytes + [b])
  {
  }

  /** `(current << 1) | bit` truncated to a byte: shifting the next bit into
      a partial byte holding the bits from `lo` up to `hi`. */
  function ShiftInBit(bits: Bits, lo: nat, hi: nat, current: byte): (next: byte)
    requires lo <= hi < |bits| && hi - lo < 8
    requires current == BitsValue(bits[lo..hi])
    ensures next == BitsValue(bits[lo..hi + 1])
  {
    var c := bits[lo..hi + 1];
    assert c[..|c| - 1] == bits[lo..hi];
    var v := current * 2 + BitValue(bits[hi]);
    assert BitsValue(c) == v;
    PowMonotone(hi - lo + 1, 8);
    assert v < 256;
    v % 256
  }

  /** Flushing a full byte extends the bytes packed so far by the next chunk. */
  lemma Flush(bits: Bits, bytes: seq<byte>, hi: nat, current: byte)
    requires hi == 8 * |bytes| + 8 <= |bits|
    requires PackedPrefix(bits, bytes)
    requires current == BitsValue(bits[8 * |bytes|..hi])
    ensures PackedPrefix(bits, bytes + [current])
  {
    FullChunk(bits, |bytes|);
    ExtendPrefix(bits, bytes, current);
  }

  /** A chunk that lies wholly inside the bit string is those eight bits. */
  lemma FullChunk(bits: Bits, j: nat)
    requires 8 * j + 8 <= |bits|
    ensures ChunkByte(bits, j) == BitsValue(bits[8 * j..8 * j + 8])
  {
    assert Chunk(bits, j) == bits[8 * j..8 * j + 8] + Zeros(0);
    assert bits[8 * j..8 * j + 8] + Zeros(0) == bits[8 * j..8 * j + 8];
  }

  /** The chunk holding the end of the bit string is its last bits shifted
      left over the padding. */
  lemma LastChunk(bits: Bits, j: nat)
    requires 8 * j < |bits| < 8 * j + 8
    ensures ChunkByte(bits, j) == BitsValue(bits[8 * j..|bits|]) * Pow2(8 * j + 8 - |bits|)
    ensures ChunkByte(bits, j) == (BitsValue(bits[8 * j..|bits|]) * Pow2(8 * j + 8 - |bits|)) % 256
  {
    assert Chunk(bits, j) == bits[8 * j..|bits|] + Zeros(8 * j + 8 - |bits|);
    ShiftIsPadding(bits[8 * j..|bits|], 8 * j + 8 - |bits|);
  }

  /** The padding of `8 * k + c` bits and the number of bytes they fill. */
  lemma PaddingOfCount(k: nat, c: nat)
    requires c < 8
    ensures PaddingFor(8 * k + c) == if c == 0 then 0 else 8 - c
    ensures (8 * k + c + 7) / 8 == if c == 0 then k else k + 1
  {
  }

  /** Shifting a partial byte left by the padding appends that many zero bits. */
  lemma {:induction false} ShiftIsPadding(c: Bits, k: nat)
    requires |c| + k == 8
    ensures BitsValue(c + Zeros(k)) == BitsValue(c) * Pow2(k)
    ensures BitsValue(c) * Pow2(k) < 256
  {
    AppendZeros(c, k);
    assert Pow2(8) == 256;
  }

  lemma {:induction false} AppendZeros(c: Bits, k: nat)
    ensures BitsValue(c + Zeros(k)) == BitsValue(c) * Pow2(k)
    decreases k
  {
    if k == 0 {
      assert c + Zeros(k) == c;
    } else {
      AppendZeros(c, k - 1);
      ZerosSnoc(c, k);
      BitsValueShift(c + Zeros(k - 1));
      MulAssoc2(BitsValue(c), Pow2(k - 1));
    }
  }

  /** One more zero bit goes at the end. */
  lemma ZerosSnoc(c: Bits, k: nat)
    requires k > 0
    ensures c + Zeros(k) == (c + Zeros(k - 1)) + [false]
  {
    assert Zeros(k) == Zeros(k - 1) + [false];
    ConcatAssoc(c, Zeros(k - 1), [false]);
  }

  /** A trailing zero bit doubles the value. */
  lemma BitsValueShift(x: Bits)
    ensures BitsValue(x + [false]) == 2 * BitsValue(x)
  {
    var d := x + [false];
    assert d[..|d| - 1] == x;
  }

  lemma MulAssoc2(v: nat, q: nat)
    ensures 2 * (v * q) == v * (2 * q)
  {
  }

  lemma {:induction false} PowMonotone(a: nat, b: nat)
    requires a <= b
    ensures Pow2(a) <= Pow2(b)
    decreases b
  {
    if a < b {
      PowMonotone(a, b - 1);
    }
  }
}

=== FILE: pipeline.dfy ===
/**
 The whole compressor: encodeFile's steps from text to container bytes and
 decodeFile's steps back, with the file reads and writes left to the caller.
 */
module Huffman {
  import opened Base
  import opened Frequency
  import opened TreeBuilder
  import opened CodeGen
  import opened BitCoding
  import opened BitPacking
  import opened ContainerFormat

  /** The bit string encodeFile packs for a non-empty text. */
  function CompressedBits(text: seq<byte>): Bits
    requires |text| > 0
  {
    assert text[0] in Frequencies(text);
    var root := BuildTree(Frequencies(text));
    Encode(text, BuildCodes(root))
  }

  /** The container fields encodeFile writes for a non-empty text. */
  function CompressedContainer(text: seq<byte>): Container
    requires |text| > 0
  {
    var packed := Pack(CompressedBits(text));
    Container(packed.padding, Entries(Frequencies(text)), packed.bytes)
  }

  /** encodeFile: count, build the tree and codes, encode, pack and write the
      container. An empty text is refused. */
  function Compress(text: seq<byte>): (r: Result<seq<byte>>)
    ensures r.Failure? <==> text == []
    ensures r.Failure? ==> r.error == EmptyInput
  {
    if text == [] then Failure(EmptyInput)
    else Success(Serialize(CompressedContainer(text)))
  }

  /** decodeFile: read the container, rebuild the tree from the table, unpack
      and decode the payload. Truncated data and a table with no entries are
      corrupt. */
  function Decompress(data: seq<byte>): (r: Result<seq<byte>>)
    ensures r.Failure? <==> Parse(data).Failure? || TableToMap(Parse(data).value.table) == map[]
    ensures r.Failure? ==> r.error == CorruptContainer
  {
    var c :- Parse(data);
    var freq := TableToMap(c.table);
    if |freq| == 0 then Failure(CorruptContainer)
    else Success(Decode(Unpack(Packed(c.payload, c.padding)), BuildTree(freq)))
  }

  /** Decompressing what compression wrote gives back the text. */
  lemma {:induction false} CompressDecompress(text: seq<byte>)
    requires 0 < |text| < TWO31
    ensures Compress(text).Success?
    ensures Decompress(Compress(text).value) == Success(text)
  {
    var freq := Frequencies(text);
    var c := CompressedContainer(text);
    CountsFitText(text);
    ParseSerialize(c);
    TableToMapEntries(freq);
    assert text[0] in freq;
    var root := BuildTree(freq);
    var bits := CompressedBits(text);
    UnpackPack(bits);
    forall i | 0 <= i < |text| ensures text[i] in Symbols(root) {
      assert multiset(Symbols(root))[text[i]] == 1;
    }
    DecodeEncode(text, root);
  }

  /** The counts written for a text shorter than 2^31 fit their int fields. */
  lemma CountsFitText(text: seq<byte>)
    requires 0 < |text| < TWO31
    ensures CountsFit(Entries(Frequencies(text)))
  {
    var freq := Frequencies(text);
    var es := Entries(freq);
    forall i | 0 <= i < |es| ensures IsInt32(es[i].1) {
      assert es[i] in es;
      OccurrencesBounded(text, es[i].0);
    }
  }

  /** The container holds 8 header bytes, five bytes per distinct byte of the
      text and the packed payload; the payload's bits cover the encoding with
      fewer than eight padding bits, and the counts in the table add up to
      the length of the text. */
  lemma {:induction false} CompressedLayout(text: seq<byte>)
    requires |text| > 0
    ensures var bits := CompressedBits(text);
      && |Compress(text).value| == 8 + 5 * |Frequencies(text)| + (|bits| + 7) / 8
      && CompressedContainer(text).padding == (8 - |bits| % 8) % 8
      && SumCounts(CompressedContainer(text).table) == |text|
  {
    var freq := Frequencies(text);
    var bits := CompressedBits(text);
    var c := CompressedContainer(text);
    EntriesCount(freq);
    EntriesTotal(freq);
    TotalIsLength(text);
    assert |c.table| == |freq| && |c.payload| == (|bits| + 7) / 8;
    assert Compress(text).value == Serialize(c);
  }

  /** A container whose table declares no entries is corrupt. */
  lemma EmptyTableIsCorrupt(data: seq<byte>)
    requires Parse(data).Success? && Parse(data).value.table == []
    ensures Decompress(data) == Failure(CorruptContainer)
  {
    assert TableToMap([]) == map[];
  }
}

=== FILE: tree.dfy ===
/**
 Tree construction (`buildHuffmanTree`): the priority queue ordered by
 `Compare`, modelled as a sorted list, and the merge loop that combines the
 two lowest-ranked nodes until one root remains.
 */
module TreeBuilder {
  import opened Base
  import opened Frequency

  /** A node of the Huffman tree; `freq` is its weight. A leaf holds one byte,
      an internal node has exactly two children. */
  datatype Tree =
    | Leaf(ch: byte, freq: int)
    | Internal(freq: int, left: Tree, right: Tree)

  /** The node's `ch` field read as a signed `char`; internal nodes carry '\0'. */
  function Rank(t: Tree): int {
    if t.Leaf? then SignedChar(t.ch) else 0
  }

  /** The queue's comparator: `l` ranks strictly below `r` (so `r` leaves the
      queue first) when `l` is heavier, or equally heavy with a larger `ch`. */
  function Compare(l: Tree, r: Tree): (b: bool)
    ensures b ==> l.freq >= r.freq
    ensures l.freq > r.freq ==> b
    ensures b ==> !SameKey(l, r)
    ensures l.freq == r.freq ==> (b <==> Rank(l) > Rank(r))
  {
    if l.freq == r.freq then Rank(l) > Rank(r) else l.freq > r.freq
  }

  /** Neither node outranks the other. */
  predicate SameKey(a: Tree, b: Tree) {
    a.freq == b.freq && Rank(a) == Rank(b)
  }

  /** The comparator is a strict weak order: irreflexive, asymmetric,
      transitive, and any two nodes either compare or share a key. */
  lemma CompareIsStrictWeakOrder(a: Tree, b: Tree, c: Tree)
    ensures !Compare(a, a)
    ensures Compare(a, b) ==> !Compare(b, a)
    ensures Compare(a, b) && Compare(b, c) ==> Compare(a, c)
    ensures Compare(a, b) || Compare(b, a) || SameKey(a, b)
  {
  }

  /** A queue listed in the order it is popped: no node outranks one before it. */
  ghost predicate Sorted(q: seq<Tree>) {
    forall i, j :: 0 <= i < j < |q| ==> !Compare(q[i], q[j])
  }

  /** The front of a queue in pop order is a lightest node, and among the
      lightest it has the smallest `ch`. */
  lemma SortedFrontIsMin(q: seq<Tree>, x: Tree)
    requires Sorted(q) && x in q
    ensures q[0].freq < x.freq || (q[0].freq == x.freq && Rank(q[0]) <= Rank(x))
  {
    var j :| 0 <= j < |q| && q[j] == x;
    if j > 0 {
      assert !Compare(q[0], q[j]);
    }
  }

  /** A queue in which every node strictly outranks every node after it. */
  ghost predicate StrictlySorted(q: seq<Tree>) {
    forall i, j :: 0 <= i < j < |q| ==> Compare(q[j], q[i])
  }

  /** The bytes at the leaves, left to right. */
  function Symbols(t: Tree): seq<byte> {
    match t
    case Leaf(c, _) => [c]
    case Internal(_, l, r) => Symbols(l) + Symbols(r)
  }

  /** The (byte, weight) pairs at the leaves, left to right. */
  function Leaves(t: Tree): seq<(byte, int)> {
    match t
    case Leaf(c, f) => [(c, f)]
    case Internal(_, l, r) => Leaves(l) + Leaves(r)
  }

  /** Every internal node weighs the sum of its children's weights. */
  ghost predicate WellWeighted(t: Tree) {
    match t
    case Leaf(_, _) => true
    case Internal(f, l, r) => f == l.freq + r.freq && WellWeighted(l) && WellWeighted(r)
  }

  /** Every node of the queue is well weighted. */
  ghost predicate AllWellWeighted(q: seq<Tree>) {
    forall t :: t in q ==> WellWeighted(t)
  }

  function ForestSymbols(q: seq<Tree>): seq<byte> {
    if q == [] then [] else Symbols(q[0]) + ForestSymbols(q[1..])
  }

  function ForestLeaves(q: seq<Tree>): seq<(byte, int)> {
    if q == [] then [] else Leaves(q[0]) + ForestLeaves(q[1..])
  }

  /** The summed weight of the nodes in a queue. */
  function SumFreq(q: seq<Tree>): int {
    if q == [] then 0 else q[0].freq + SumFreq(q[1..])
  }

  /** Where `push` places `t`: behind every node it does not outrank and ahead
      of every node it outranks, so equal keys leave in arrival order. */
  function InsertPos(q: seq<Tree>, t: Tree): (k: nat)
    ensures k <= |q|
    ensures forall i :: 0 <= i < k ==> !Compare(q[i], t)
    ensures Sorted(q) ==> forall j :: k <= j < |q| ==> Compare(q[j], t)
  {
    if q == [] || Compare(q[0], t) then 0 else 1 + InsertPos(q[1..], t)
  }

  /** `pq.push(t)` on the sorted-list queue. */
  function Push(q: seq<Tree>, t: Tree): (r: seq<Tree>)
    requires Sorted(q)
    ensures Sorted(r)
    ensures multiset(r) == multiset(q) + multiset{t}
    decreases |q|
  {
    if q == [] || Compare(q[0], t) then
      [t] + q
    else
      var rest := Push(q[1..], t);
      PushHeadSorted(q, t, rest);
      assert q == [q[0]] + q[1..];
      [q[0]] + rest
  }

  lemma PushHeadSorted(q: seq<Tree>, t: Tree, rest: seq<Tree>)
    requires q != [] && Sorted(q) && !Compare(q[0], t)
    requires Sorted(rest) && multiset(rest) == multiset(q[1..]) + multiset{t}
    ensures Sorted([q[0]] + rest)
  {
    forall x | x in rest
      ensures !Compare(q[0], x)
    {
      assert x in multiset(rest);
      if x != t {
        assert x in multiset(q[1..]);
        var j :| 0 <= j < |q[1..]| && q[1..][j] == x;
        assert q[j + 1] == x;
      }
    }
    var r := [q[0]] + rest;
    forall i, j | 0 <= i < j < |r|
      ensures !Compare(r[i], r[j])
    {
      assert r[j] == rest[j - 1];
      if i > 0 {
        assert r[i] == rest[i - 1];
      } else {
        assert rest[j - 1] in rest;
      }
    }
  }

  /** `push` places `t` at its insertion position and moves nothing else. */
  lemma {:induction false} PushAtInsertPos(q: seq<Tree>, t: Tree)
    requires Sorted(q)
    ensures Push(q, t) == q[..InsertPos(q, t)] + [t] + q[InsertPos(q, t)..]
    decreases |q|
  {
    if q != [] && !Compare(q[0], t) {
      var k' := InsertPos(q[1..], t);
      PushAtInsertPos(q[1..], t);
      ConsSplit(q, k', t);
    } else {
      assert q[..0] == [] && q[0..] == q;
    }
  }

  /** The bytes, leaves and weight of a concatenation of queues are those of
      its parts. */
  lemma ForestAppend(a: seq<Tree>, b: seq<Tree>)
    ensures ForestSymbols(a + b) == ForestSymbols(a) + ForestSymbols(b)
    ensures ForestLeaves(a + b) == ForestLeaves(a) + ForestLeaves(b)
    ensures SumFreq(a + b) == SumFreq(a) + SumFreq(b)
  {
    ForestSymbolsAppend(a, b);
    ForestLeavesAppend(a, b);
    SumFreqAppend(a, b);
  }

  lemma {:induction false} ForestSymbolsAppend(a: seq<Tree>, b: seq<Tree>)
    ensures ForestSymbols(a + b) == ForestSymbols(a) + ForestSymbols(b)
    decreases |a|
  {
    if a == [] {
      assert a + b == b;
    } else {
      ConsAppend(a, b);
      ForestSymbolsAppend(a[1..], b);
      ConcatAssoc(Symbols(a[0]), ForestSymbols(a[1..]), ForestSymbols(b));
    }
  }

  lemma {:induction false} ForestLeavesAppend(a: seq<Tree>, b: seq<Tree>)
    ensures ForestLeaves(a + b) == ForestLeaves(a) + ForestLeaves(b)
    decreases |a|
  {
    if a == [] {
      assert a + b == b;
    } else {
      ConsAppend(a, b);
      ForestLeavesAppend(a[1..], b);
      ConcatAssoc(Leaves(a[0]), ForestLeaves(a[1..]), ForestLeaves(b));
    }
  }

  lemma {:induction false} SumFreqAppend(a: seq<Tree>, b: seq<Tree>)
    ensures SumFreq(a + b) == SumFreq(a) + SumFreq(b)
    decreases |a|
  {
    if a == [] {
      assert a + b == b;
    } else {
      ConsAppend(a, b);
      SumFreqAppend(a[1..], b);
    }
  }

  /** Pushing a node adds exactly its leaves and its weight to the queue. */
  lemma {:induction false} PushForest(q: seq<Tree>, t: Tree)
    requires Sorted(q)
    ensures multiset(ForestSymbols(Push(q, t))) == multiset(ForestSymbols(q)) + multiset(Symbols(t))
    ensures multiset(ForestLeaves(Push(q, t))) == multiset(ForestLeaves(q)) + multiset(Leaves(t))
    ensures SumFreq(Push(q, t)) == SumFreq(q) + t.freq
  {
    PushAtInsertPos(q, t);
    ForestInsertAt(q, t, InsertPos(q, t), Push(q, t));
  }

  lemma {:induction false} ForestInsertAt(q: seq<Tree>, t: Tree, k: nat, r: seq<Tree>)
    requires k <= |q| && r == q[..k] + [t] + q[k..]
    ensures multiset(ForestSymbols(r)) == multiset(ForestSymbols(q)) + multiset(Symbols(t))
    ensures multiset(ForestLeaves(r)) == multiset(ForestLeaves(q)) + multiset(Leaves(t))
    ensures SumFreq(r) == SumFreq(q) + t.freq
  {
    var a, b := q[..k], q[k..];
    assert a + b == q;
    ForestInsert(a, t, b);
  }

  lemma {:induction false} ForestInsert(a: seq<Tree>, t: Tree, b: seq<Tree>)
    ensures multiset(ForestSymbols(a + [t] + b)) == multiset(ForestSymbols(a + b)) + multiset(Symbols(t))
    ensures multiset(ForestLeaves(a + [t] + b)) == multiset(ForestLeaves(a + b)) + multiset(Leaves(t))
    ensures SumFreq(a + [t] + b) == SumFreq(a + b) + t.freq
  {
    ForestAppend(a, b);
    ForestAppend(a + [t], b);
    ForestAppend(a, [t]);
    ForestSingle(t);
    MultisetInsert(ForestSymbols(a), Symbols(t), ForestSymbols(b));
    MultisetInsert(ForestLeaves(a), Leaves(t), ForestLeaves(b));
  }

  /** The nodes of the queue after a push are the old ones and the pushed one. */
  lemma PushMembers(q: seq<Tree>, t: Tree)
    requires Sorted(q)
    ensures |Push(q, t)| == |q| + 1
    ensures forall x :: x in Push(q, t) <==> x in q || x == t
  {
    var r := Push(q, t);
    assert |r| == |multiset(r)| == |multiset(q)| + 1 == |q| + 1;
    forall x
      ensures x in r <==> x in q || x == t
    {
      assert x in r <==> x in multiset(r);
      assert x in q <==> x in multiset(q);
    }
  }

  lemma ForestSingle(t: Tree)
    ensures ForestSymbols([t]) == Symbols(t)
    ensures ForestLeaves([t]) == Leaves(t)
    ensures SumFreq([t]) == t.freq
  {
    assert [t][1..] == [];
    assert Symbols(t) + [] == Symbols(t);
    assert Leaves(t) + [] == Leaves(t);
  }

  /** The queue holding one leaf per entry, pushed in the order given. */
  function InitQueue(entries: seq<(byte, int)>): (q: seq<Tree>)
    ensures Sorted(q)
    ensures |q| == |entries|
    ensures forall t :: t in q ==> t.Leaf?
    ensures multiset(ForestSymbols(q)) == multiset(KeysOf(entries))
    ensures multiset(ForestLeaves(q)) == multiset(entries)
    ensures SumFreq(q) == SumCounts(entries)
    decreases |entries|
  {
    if entries == [] then []
    else
      var init := entries[..|entries| - 1];
      var last := entries[|entries| - 1];
      assert entries == init + [last];
      KeysOfAppend(init, [last]);
      SumCountsAppend(init, [last]);
      var prev := InitQueue(init);
      var leaf := Leaf(last.0, last.1);
      PushForest(prev, leaf);
      PushMembers(prev, leaf);
      Push(prev, leaf)
  }

  /** One iteration of the merge loop: pop the two top-ranked nodes and push
      a parent with the first as left child, the second as right child and
      their summed weight. */
  function MergeStep(q: seq<Tree>): (next: seq<Tree>)
    requires |q| >= 2 && Sorted(q)
    ensures Sorted(next)
    ensures |next| == |q| - 1
  {
    var parent := Internal(q[0].freq + q[1].freq, q[0], q[1]);
    PopTwo(q);
    PushMembers(q[2..], parent);
    Push(q[2..], parent)
  }

  /** A merge step keeps the queue's leaves and total weight, keeps every
      node well weighted, and leaves the new parent in the queue. */
  lemma {:induction false} MergeStepKeeps(q: seq<Tree>)
    requires |q| >= 2 && Sorted(q)
    ensures Internal(q[0].freq + q[1].freq, q[0], q[1]) in MergeStep(q)
    ensures multiset(ForestSymbols(MergeStep(q))) == multiset(ForestSymbols(q))
    ensures multiset(ForestLeaves(MergeStep(q))) == multiset(ForestLeaves(q))
    ensures SumFreq(MergeStep(q)) == SumFreq(q)
    ensures AllWellWeighted(q) ==> AllWellWeighted(MergeStep(q))
  {
    MergeStepForest(q);
    MergeStepMembers(q);
  }

  lemma {:induction false} MergeStepForest(q: seq<Tree>)
    requires |q| >= 2 && Sorted(q)
    ensures multiset(ForestSymbols(MergeStep(q))) == multiset(ForestSymbols(q))
    ensures multiset(ForestLeaves(MergeStep(q))) == multiset(ForestLeaves(q))
    ensures SumFreq(MergeStep(q)) == SumFreq(q)
  {
    PopTwo(q);
    PushForest(q[2..], Internal(q[0].freq + q[1].freq, q[0], q[1]));
    ForestOfParent(q);
  }

  lemma MergeStepMembers(q: seq<Tree>)
    requires |q| >= 2 && Sorted(q)
    ensures Internal(q[0].freq + q[1].freq, q[0], q[1]) in MergeStep(q)
    ensures AllWellWeighted(q) ==> AllWellWeighted(MergeStep(q))
  {
    var parent := Internal(q[0].freq + q[1].freq, q[0], q[1]);
    PopTwo(q);
    PushMembers(q[2..], parent);
    MergeStepWellWeighted(q, q[2..], parent, Push(q[2..], parent));
  }

  /** What remains after popping the two front nodes is still a sorted queue. */
  lemma PopTwo(q: seq<Tree>)
    requires |q| >= 2 && Sorted(q)
    ensures Sorted(q[2..])
    ensures forall t :: t in q[2..] ==> t in q
  {
    var rest := q[2..];
    forall i, j | 0 <= i < j < |rest|
      ensures !Compare(rest[i], rest[j])
    {
      assert rest[i] == q[i + 2] && rest[j] == q[j + 2];
    }
    forall t | t in rest
      ensures t in q
    {
      var j :| 0 <= j < |rest| && rest[j] == t;
      assert q[j + 2] == t;
    }
  }

  lemma MergeStepWellWeighted(q: seq<Tree>, rest: seq<Tree>, parent: Tree, next: seq<Tree>)
    requires |q| >= 2 && parent == Internal(q[0].freq + q[1].freq, q[0], q[1])
    requires forall t :: t in rest ==> t in q
    requires forall x :: x in next <==> x in rest || x == parent
    ensures AllWellWeighted(q) ==> AllWellWeighted(next)
  {
    if AllWellWeighted(q) {
      assert q[0] in q && q[1] in q;
      assert WellWeighted(parent);
    }
  }

  /** Replacing the two front nodes by their parent keeps the forest's leaves and weight. */
  lemma {:induction false} ForestOfParent(q: seq<Tree>)
    requires |q| >= 2
    ensures var parent := Internal(q[0].freq + q[1].freq, q[0], q[1]);
      && multiset(ForestSymbols(q)) == multiset(ForestSymbols(q[2..])) + multiset(Symbols(parent))
      && multiset(ForestLeaves(q)) == multiset(ForestLeaves(q[2..])) + multiset(Leaves(parent))
      && SumFreq(q) == SumFreq(q[2..]) + parent.freq
  {
    var q1 := q[1..];
    assert q1[0] == q[1] && q1[1..] == q[2..];
    assert ForestSymbols(q) == Symbols(q[0]) + (Symbols(q[1]) + ForestSymbols(q[2..]));
    MultisetRegroup(Symbols(q[0]), Symbols(q[1]), ForestSymbols(q[2..]));
    assert ForestLeaves(q) == Leaves(q[0]) + (Leaves(q[1]) + ForestLeaves(q[2..]));
    MultisetRegroup(Leaves(q[0]), Leaves(q[1]), ForestLeaves(q[2..]));
  }

  /** The merge loop of buildHuffmanTree: merge until one node remains. */
  function Merge(q: seq<Tree>): (root: Tree)
    requires |q| >= 1 && Sorted(q)
    ensures multiset(Symbols(root)) == multiset(ForestSymbols(q))
    ensures multiset(Leaves(root)) == multiset(ForestLeaves(q))
    ensures root.freq == SumFreq(q)
    ensures AllWellWeighted(q) ==> WellWeighted(root)
    ensures |q| == 1 ==> root == q[0]
    ensures |q| >= 2 ==> root.Internal?
    decreases |q|
  {
    if |q| == 1 then
      ForestSingle(q[0]);
      assert q == [q[0]];
      q[0]
    else
      var next := MergeStep(q);
      MergeStepKeeps(q);
      assert |next| == 1 ==> next[0].Internal?;
      Merge(next)
  }

  /** buildHuffmanTree: the leaves of the sorted entries merged into one tree.
      The source takes `top()` of an empty queue on an empty table, so a
      non-empty table is required. */
  function BuildTree(m: FreqTable): (root: Tree)
    requires |m| > 0
    ensures forall b :: multiset(Symbols(root))[b] == if b in m then 1 else 0
    ensures forall e :: e in Leaves(root) <==> e.0 in m && e.1 == m[e.0]
    ensures WellWeighted(root)
    ensures root.freq == Total(m)
    ensures root.Leaf? <==> |m| == 1
  {
    var entries := Entries(m);
    EntriesCount(m);
    EntryKeysOnce(m);
    EntriesTotal(m);
    var q := InitQueue(entries);
    var root := Merge(q);
    assert forall e :: e in Leaves(root) <==> e in entries by {
      forall e
        ensures e in Leaves(root) <==> e in entries
      {
        assert e in Leaves(root) <==> e in multiset(Leaves(root));
        assert e in entries <==> e in multiset(entries);
      }
    }
    root
  }

  // ---------------------------------------------------------------------
  // Independence from the order in which the table is enumerated

  /** No byte is listed twice. */
  ghost predicate DistinctKeys(entries: seq<(byte, int)>) {
    NoDuplicates(KeysOf(entries))
  }

  /** The initial queue holds exactly one leaf per entry and nothing else. */
  lemma {:induction false} InitQueueContents(entries: seq<(byte, int)>)
    ensures forall t :: multiset(InitQueue(entries))[t] == if t.Leaf? then multiset(entries)[(t.ch, t.freq)] else 0
    decreases |entries|
  {
    if entries != [] {
      var init := entries[..|entries| - 1];
      var last := entries[|entries| - 1];
      InitQueueSnoc(entries);
      InitQueueContents(init);
      CountAfterSnoc(multiset(InitQueue(init)), multiset(init), last);
    }
  }

  /** One step of InitQueue: the last entry's leaf joins the queue. */
  lemma {:induction false} InitQueueSnoc(entries: seq<(byte, int)>)
    requires entries != []
    ensures var last := entries[|entries| - 1];
      && multiset(entries) == multiset(entries[..|entries| - 1]) + multiset{last}
      && multiset(InitQueue(entries)) == multiset(InitQueue(entries[..|entries| - 1])) + multiset{Leaf(last.0, last.1)}
  {
    MultisetSnoc(entries);
    InitQueueStep(entries);
  }

  /** The leaf-per-entry correspondence survives adding one entry and its leaf. */
  lemma CountAfterSnoc(mq: multiset<Tree>, me: multiset<(byte, int)>, last: (byte, int))
    requires forall t :: mq[t] == if t.Leaf? then me[(t.ch, t.freq)] else 0
    ensures var mq', me' := mq + multiset{Leaf(last.0, last.1)}, me + multiset{last};
      forall t :: mq'[t] == if t.Leaf? then me'[(t.ch, t.freq)] else 0
  {
    var leaf := Leaf(last.0, last.1);
    forall t
      ensures (mq + multiset{leaf})[t] == if t.Leaf? then (me + multiset{last})[(t.ch, t.freq)] else 0
    {
      assert t == leaf <==> t.Leaf? && (t.ch, t.freq) == last;
    }
  }

  lemma StrictImpliesSorted(q: seq<Tree>)
    requires StrictlySorted(q)
    ensures Sorted(q)
  {
  }

  /** A strictly ordered queue without its front node is strictly ordered and
      ranks below that node. */
  lemma StrictTail(q: seq<Tree>)
    requires q != [] && StrictlySorted(q)
    ensures StrictlySorted(q[1..])
    ensures forall x :: x in q[1..] ==> Compare(x, q[0])
  {
    var tail := q[1..];
    forall i, j | 0 <= i < j < |tail|
      ensures Compare(tail[j], tail[i])
    {
      assert tail[i] == q[i + 1] && tail[j] == q[j + 1];
    }
    forall x | x in tail
      ensures Compare(x, q[0])
    {
      var j :| 0 <= j < |tail| && tail[j] == x;
      assert q[j + 1] == x;
    }
  }

  lemma StrictPrepend(h: Tree, rest: seq<Tree>)
    requires StrictlySorted(rest)
    requires forall x :: x in rest ==> Compare(x, h)
    ensures StrictlySorted([h] + rest)
  {
    var r := [h] + rest;
    forall i, j | 0 <= i < j < |r|
      ensures Compare(r[j], r[i])
    {
      assert r[j] == rest[j - 1];
      if i > 0 {
        assert r[i] == rest[i - 1];
      } else {
        assert rest[j - 1] in rest;
      }
    }
  }

  /** Pushing a node whose key differs from every queued key keeps the queue
      strictly ordered. */
  lemma {:induction false} PushStrict(q: seq<Tree>, t: Tree)
    requires StrictlySorted(q)
    requires forall x :: x in q ==> !SameKey(x, t)
    ensures Sorted(q)
    ensures StrictlySorted(Push(q, t))
    decreases |q|
  {
    StrictImpliesSorted(q);
    if q != [] {
      StrictTail(q);
      if Compare(q[0], t) {
        assert forall x :: x in q ==> Compare(x, t) by {
          forall x | x in q
            ensures Compare(x, t)
          {
            if x != q[0] {
              assert x in q[1..] by {
                var j :| 0 <= j < |q| && q[j] == x;
                assert j > 0 && q[1..][j - 1] == x;
              }
            }
          }
        }
        StrictPrepend(t, q);
      } else {
        var tail := q[1..];
        assert forall x :: x in tail ==> x in q;
        PushStrict(tail, t);
        PushMembers(tail, t);
        assert !SameKey(q[0], t) by {
          assert q[0] in q;
        }
        StrictPrepend(q[0], Push(tail, t));
      }
    }
  }

  /** The initial queue holds leaves only, each made from one of the entries. */
  lemma {:induction false} InitQueueLeaves(entries: seq<(byte, int)>)
    ensures forall x :: x in InitQueue(entries) ==> x.Leaf? && (x.ch, x.freq) in entries
    decreases |entries|
  {
    if entries != [] {
      var init := entries[..|entries| - 1];
      var last := entries[|entries| - 1];
      InitQueueLeaves(init);
      InitQueueMembers(entries);
      InFront(entries);
    }
  }

  /** One step of InitQueue: the queue holds the other entries' nodes and the
      last entry's leaf. */
  lemma {:induction false} InitQueueMembers(entries: seq<(byte, int)>)
    requires entries != []
    ensures var last := entries[|entries| - 1];
      forall x :: x in InitQueue(entries) <==> x in InitQueue(entries[..|entries| - 1]) || x == Leaf(last.0, last.1)
  {
    var last := entries[|entries| - 1];
    InitQueueStep(entries);
    PushMembers(InitQueue(entries[..|entries| - 1]), Leaf(last.0, last.1));
  }

  /** One step of InitQueue: the last entry's leaf is pushed onto the queue
      of the others. */
  lemma InitQueueStep(entries: seq<(byte, int)>)
    requires entries != []
    ensures var last := entries[|entries| - 1];
      InitQueue(entries) == Push(InitQueue(entries[..|entries| - 1]), Leaf(last.0, last.1))
  {
  }

  /** When no byte is listed twice, every initial leaf strictly outranks the next. */
  lemma {:induction false} InitQueueStrict(entries: seq<(byte, int)>)
    requires DistinctKeys(entries)
    ensures StrictlySorted(InitQueue(entries))
    decreases |entries|
  {
    if entries != [] {
      DistinctKeysFront(entries);
      InitQueueStrict(entries[..|entries| - 1]);
      LastKeyFresh(entries);
      InitQueueStrictStep(entries);
    }
  }

  /** Leaves of different bytes never share a key. */
  lemma DistinctLeavesDiffer(x: Tree, y: Tree)
    requires x.Leaf? && y.Leaf? && x.ch != y.ch
    ensures !SameKey(x, y)
  {
    assert x.ch < 128 <= y.ch || y.ch < 128 <= x.ch || Rank(x) - Rank(y) == x.ch - y.ch;
  }

  /** Pushing the leaf of a byte not listed before keeps the queue strict. */
  lemma InitQueueStrictStep(entries: seq<(byte, int)>)
    requires entries != [] && StrictlySorted(InitQueue(entries[..|entries| - 1]))
    requires forall e :: e in entries[..|entries| - 1] ==> e.0 != entries[|entries| - 1].0
    ensures StrictlySorted(InitQueue(entries))
  {
    var init := entries[..|entries| - 1];
    var last := entries[|entries| - 1];
    var q, leaf := InitQueue(init), Leaf(last.0, last.1);
    InitQueueLeaves(init);
    forall x | x in q
      ensures !SameKey(x, leaf)
    {
      assert (x.ch, x.freq) in init;
      DistinctLeavesDiffer(x, leaf);
    }
    PushStrict(q, leaf);
    InitQueueStep(entries);
  }

  /** Dropping the last entry keeps the keys distinct. */
  lemma DistinctKeysFront(entries: seq<(byte, int)>)
    requires entries != [] && DistinctKeys(entries)
    ensures DistinctKeys(entries[..|entries| - 1])
  {
    var init := entries[..|entries| - 1];
    var ks, ki := KeysOf(entries), KeysOf(init);
    forall i, j | 0 <= i < j < |ki|
      ensures ki[i] != ki[j]
    {
      assert ki[i] == ks[i] && ki[j] == ks[j];
    }
  }

  /** With distinct keys, the last entry's byte occurs nowhere before it. */
  lemma LastKeyFresh(entries: seq<(byte, int)>)
    requires entries != [] && DistinctKeys(entries)
    ensures forall e :: e in entries[..|entries| - 1] ==> e.0 != entries[|entries| - 1].0
  {
    var init := entries[..|entries| - 1];
    forall e | e in init
      ensures e.0 != entries[|entries| - 1].0
    {
      var i :| 0 <= i < |init| && init[i] == e;
      assert entries[i] == e;
    }
  }

  /** Two strictly ordered queues with the same nodes are the same queue. */
  lemma {:induction false} StrictlySortedUnique(a: seq<Tree>, b: seq<Tree>)
    requires StrictlySorted(a) && StrictlySorted(b)
    requires multiset(a) == multiset(b)
    ensures a == b
    decreases |a|
  {
    assert |a| == |multiset(a)| == |b|;
    if a != [] {
      StrictTail(a);
      StrictTail(b);
      StrictFront(a, b);
      MultisetTail(a, b);
      StrictlySortedUnique(a[1..], b[1..]);
      assert a == [a[0]] + a[1..] && b == [b[0]] + b[1..];
    }
  }

  /** Two strictly ordered queues with the same nodes have the same front:
      each front outranks every other node of the queue. */
  lemma StrictFront(a: seq<Tree>, b: seq<Tree>)
    requires StrictlySorted(a) && StrictlySorted(b)
    requires a != [] && multiset(a) == multiset(b)
    ensures b != [] && a[0] == b[0]
  {
    assert a[0] in multiset(b);
    assert b[0] in multiset(a);
    assert a[0] == b[0];
  }

  /** The tree depends only on the table's entries, not on the order in which
      they were enumerated before sorting. */
  lemma {:induction false} InitQueueOrderIndependent(e1: seq<(byte, int)>, e2: seq<(byte, int)>)
    requires DistinctKeys(e1) && DistinctKeys(e2)
    requires multiset(e1) == multiset(e2)
    requires |e1| > 0
    ensures InitQueue(e1) == InitQueue(e2)
    ensures Merge(InitQueue(e1)) == Merge(InitQueue(e2))
  {
    var q1, q2 := InitQueue(e1), InitQueue(e2);
    InitQueueStrict(e1);
    InitQueueStrict(e2);
    InitQueueSameNodes(e1, e2);
    StrictlySortedUnique(q1, q2);
  }

  lemma {:induction false} InitQueueSameNodes(e1: seq<(byte, int)>, e2: seq<(byte, int)>)
    requires multiset(e1) == multiset(e2)
    ensures multiset(InitQueue(e1)) == multiset(InitQueue(e2))
  {
    var q1, q2 := InitQueue(e1), InitQueue(e2);
    InitQueueContents(e1);
    InitQueueContents(e2);
    forall t
      ensures multiset(q1)[t] == multiset(q2)[t]
    {
    }
  }
}
